=== FILE: README.md ===
# Observation table of the symbolic L* learner

This project models the observation table `ObsTable` of the symbolic-automaton
learner in `SVPAlib/src/learning_symbolic_ce/sfa/SymbolicLearner.java`. That
learner implements "Learning Symbolic Automata" by Drews and D'Antoni. The table holds:

- the access strings `S`;
- the frontier `R`;
- the evidence `E`;
- their union-as-a-list `SUR`, which may hold duplicates;
- a memoised membership map `f`;
- for every access string, an *observed partition*. This is a list of
  (guard, target access string, witness) triples that says where each
  symbol leads.

Predicates are modelled semantically: a guard is the set of symbols it accepts (`iset<Sym>`).
- `MkAnd`, `MkOr` and `MkNot` are intersection, union and complement.
- `IsSatisfiable` means non-empty and `AreEquivalent` means equality.
- `generateWitness` is a fixed choice of a member, or `None` when the set is empty.

The membership oracle is a total function `Oracle = Word -> bool` passed as a parameter.

Each Java method that mutates the table becomes a pure function. It returns
the new table and, where the method returns a flag, that flag. A failing Java
`assert`, and a null dereference the code would hit in the same situation,
becomes an explicit `Err(Fault)` outcome. The exceptions are the
"table filled" assumptions of `close` and `make_consistent`, which are
preconditions.

Modules, one per file:

| module | file | what it holds |
|---|---|---|
| `Base` | base.dfy | `Option`, `Result` and the fault kinds |
| `Words` | words.dfy | `isPrefix`, `getSuffix` |
| `Predicates` | predicates.dfy | the semantic predicate algebra |
| `ObservationTable` | table.dfy | the table, the constructor, `row`, `getAccessString`, `addState`, the bookkeeping invariant `WellFormed` |
| `Filling` | fill.dfy | `fill` |
| `Closing` | close.dfy | `close` |
| `Consistency` | consistency.dfy | `make_consistent` |
| `Distribution` | distribute.dfy | `distribute` |
| `ObservedPartition` | partition.dfy | `completeObservedPartition` |
| `Counterexample` | counterexample.dfy | `process` |
| `Conjecture` | conjecture.dfy | `buildSFA` |
| `Learner` | driver.dfy | the inner fixpoint loop of `learn` |

Every table operation, `addState` and `fill` included, has a partner lemma.
The lemma shows that the operation keeps `WellFormed`, which has five parts:

- `S` starts with the empty word;
- `E` starts with the empty word;
- `SUR` holds exactly the words of `S` and `R`;
- every access string has a partition whose guards are pairwise disjoint and
  cover the whole alphabet;
- every triple that has a witness also has a target, and that target is an
  access string.

The last part holds because `completeObservedPartition` sets a triple's target
before its witness, `process` adds only triples with neither, and every
partition is reset whenever S grows.

The inner loop carries this invariant across its passes.

Refinement by a counterexample predicate is a true refinement. The scan keeps or
splits each guard, and a split guard g becomes g∧c and g∧¬c. So a successful
`process` gives one partition more triples, the same cover, and guards that each
lie inside an old guard.
As in the source, a guard that lies wholly inside the predicate still splits,
and its second half is empty. No symbol satisfies that half, so the next
`completeObservedPartition` reports `NoWitness` for it.

## Model

| member | source | states |
|---|---|---|
| Words.AgreeFrom | SVPAlib/src/learning_symbolic_ce/sfa/SymbolicLearner.java:189-191 | the comparison loop answers true exactly when the two words agree on every position from i to the end of the shorter one |
| Words.IsPrefix | SVPAlib/src/learning_symbolic_ce/sfa/SymbolicLearner.java:186-193 | `isPrefix(w, we)` holds exactly when w is strictly shorter than we and equals its first \|w\| symbols |
| Words.TailFrom | SVPAlib/src/learning_symbolic_ce/sfa/SymbolicLearner.java:198-199 | the symbol-by-symbol copy loop yields exactly the slice of we from position k, or nothing past its end |
| Words.GetSuffix | SVPAlib/src/learning_symbolic_ce/sfa/SymbolicLearner.java:196-201 | for a strict prefix w, w followed by `getSuffix(w, we)` is we and the suffix is non-empty; its length is \|we\|-\|w\|; it is empty when w is not shorter |
| Words.ExtensionRoundTrip | SVPAlib/src/learning_symbolic_ce/sfa/SymbolicLearner.java:186-201 | the two helpers are inverse: w is a strict prefix of w·x exactly when x is non-empty, and `getSuffix(w, w·x)` gives back x |
| Predicates.GenerateWitness | SVPAlib/src/learning_symbolic_ce/sfa/SymbolicLearner.java:332-333 | a witness exists exactly when the predicate is satisfiable, and the witness satisfies it |
| ObservationTable.RowOfMeaning | SVPAlib/src/learning_symbolic_ce/sfa/SymbolicLearner.java:492-505 | `row(w, ignore)` is defined exactly when w·e has been asked for every evidence word other than the ignored one; entry k is then f of w followed by the k-th such word |
| ObservationTable.RowMeaning | SVPAlib/src/learning_symbolic_ce/sfa/SymbolicLearner.java:488-505 | `row(w)` is non-null exactly when every w·e is in f; it then has one entry per evidence word, entry k being f(w·E[k]) |
| ObservationTable.RowsEqual | SVPAlib/src/learning_symbolic_ce/sfa/SymbolicLearner.java:488-505 | two defined rows are equal exactly when f agrees on u·E[k] and v·E[k] for every k |
| ObservationTable.FirstWithRow | SVPAlib/src/learning_symbolic_ce/sfa/SymbolicLearner.java:146-150 | the scan over S finds the first access string with the given row, and none earlier has it; none found means no access string has it |
| ObservationTable.GetAccessString | SVPAlib/src/learning_symbolic_ce/sfa/SymbolicLearner.java:144-152 | the answer is an access string with the row of w that no earlier access string has; there is no answer exactly when the row of w is undefined or matches no access string |
| ObservationTable.LastWithRow | SVPAlib/src/learning_symbolic_ce/sfa/SymbolicLearner.java:373-377 | rebuilding the `states` map by inserting S in order keeps, for each row, the last access string with that row: no later one shares it |
| ObservationTable.StateFor | SVPAlib/src/learning_symbolic_ce/sfa/SymbolicLearner.java:316-318 | a lookup in `states` gives an access string with the requested row, and fails exactly when no access string has that row |
| ObservationTable.FreshPartitions | SVPAlib/src/learning_symbolic_ce/sfa/SymbolicLearner.java:297-304 | after the reset, the partition map has exactly the access strings as keys and each holds a single unresolved True triple, a total partition |
| ObservationTable.Init | SVPAlib/src/learning_symbolic_ce/sfa/SymbolicLearner.java:154-182 | the new table has S = [ε], R = [arb], E = [ε], SUR = [ε, arb], an empty f, and is well formed |
| ObservationTable.ExtendFrontier | SVPAlib/src/learning_symbolic_ce/sfa/SymbolicLearner.java:548-555 | the evidence-closure loop appends to both R and SUR, in order, exactly the given words not yet in SUR, each once; every appended word is one of the given words, and nothing else changes |
| ObservationTable.FrontierGrewKeepsSurIsSR | SVPAlib/src/learning_symbolic_ce/sfa/SymbolicLearner.java:551-554 | appending the same words to R and SUR keeps SUR exactly the words of S and R |
| ObservationTable.FrontierGrewKeepsWellFormed | SVPAlib/src/learning_symbolic_ce/sfa/SymbolicLearner.java:619-626 | appending the same new words to R and SUR keeps the table well formed |
| ObservationTable.AddState | SVPAlib/src/learning_symbolic_ce/sfa/SymbolicLearner.java:285-310 | `addState(w)` succeeds exactly when w is non-empty and its one-shorter prefix is an access string; w joins S and SUR, f(w) is the oracle's answer, every partition is reset, and R and E are unchanged |
| ObservationTable.AddStateKeepsWellFormed | SVPAlib/src/learning_symbolic_ce/sfa/SymbolicLearner.java:285-310 | `addState` keeps the table well formed: S and SUR both gain w, and the reset partitions are total and hold no resolved triple |
| Filling.FillWord | SVPAlib/src/learning_symbolic_ce/sfa/SymbolicLearner.java:509-514 | after the inner loop every w·e with e in E is asked; old entries are kept, and new ones are oracle answers for some w·e |
| Filling.FillAll | SVPAlib/src/learning_symbolic_ce/sfa/SymbolicLearner.java:508-515 | after the outer loop every w·e with w in SUR and e in E is asked; old entries are kept, and new ones are oracle answers |
| Filling.Fill | SVPAlib/src/learning_symbolic_ce/sfa/SymbolicLearner.java:507-516 | after `fill` the table is filled. Only f changes, every existing entry of f is kept, and each new entry is the oracle's answer for some w·e. A table that agreed with the oracle still does |
| Filling.FillKeepsWellFormed | SVPAlib/src/learning_symbolic_ce/sfa/SymbolicLearner.java:507-516 | `fill` keeps the table well formed, as it changes only f |
| Filling.FillFilledIsIdentity | SVPAlib/src/learning_symbolic_ce/sfa/SymbolicLearner.java:512-513 | filling an already filled table changes nothing |
| Filling.FillIdempotent | SVPAlib/src/learning_symbolic_ce/sfa/SymbolicLearner.java:507-516 | filling twice is filling once |
| Filling.OracleRows | SVPAlib/src/learning_symbolic_ce/sfa/SymbolicLearner.java:493-504 | on a filled table that agrees with the oracle, the row of each SUR word is the list of oracle answers for w·E[k] |
| Filling.FilledRowsAreOracleRows | SVPAlib/src/learning_symbolic_ce/sfa/SymbolicLearner.java:488-516 | after `fill` on a table that agrees with the oracle, `row(w)` of every SUR word is non-null and entry k is the oracle's answer for w·E[k] |
| Closing.FirstOpen | SVPAlib/src/learning_symbolic_ce/sfa/SymbolicLearner.java:520-539 | the scan finds the first frontier word whose row is no access string's row; all earlier ones have such a row, and finding none means all do |
| Closing.Shortest | SVPAlib/src/learning_symbolic_ce/sfa/SymbolicLearner.java:528-536 | the tie-break returns a frontier word with the same row that is no longer than any frontier word sharing that row |
| Closing.RemoveFirst | SVPAlib/src/learning_symbolic_ce/sfa/SymbolicLearner.java:545 | `R.remove(r)` drops one occurrence of r when r is present and keeps every other word; an absent r leaves the list unchanged |
| Closing.RemoveFirstCutsFirst | SVPAlib/src/learning_symbolic_ce/sfa/SymbolicLearner.java:545 | the occurrence dropped is the first: the result is the list with the position `indexOf(r)` cut out |
| Closing.ContinuationIsOneSymbol | SVPAlib/src/learning_symbolic_ce/sfa/SymbolicLearner.java:559-567 | a SUR word one symbol longer than r with r as strict prefix is r followed by a symbol |
| Closing.AddEvidence | SVPAlib/src/learning_symbolic_ce/sfa/SymbolicLearner.java:547-555 | the evidence-closure loop leaves every r·e with e in E in SUR; the words it appends go to both R and SUR, in order and each not yet in SUR. Each is a closure word of r (some r·e or r·arb), and S, E, f, arb and the partitions are unchanged |
| Closing.NewWordsOfEvidence | SVPAlib/src/learning_symbolic_ce/sfa/SymbolicLearner.java:547-573 | the two appending loops together keep SUR as a prefix and append the same words to R and SUR, each some r·e or r·arb |
| Closing.EnsureContinuation | SVPAlib/src/learning_symbolic_ce/sfa/SymbolicLearner.java:557-573 | afterwards some one-symbol continuation of r is in SUR. Any word added is r·arb, appended to both R and SUR, and S, E, f, arb and the partitions are unchanged |
| Closing.CloseEvidence | SVPAlib/src/learning_symbolic_ce/sfa/SymbolicLearner.java:547-573 | after the evidence closure of r, SUR holds every r·e and some one-symbol continuation of r. SUR keeps its old words as a prefix, and R gains exactly the words SUR gains, each some r·e with e in E or r·arb. S, E, f, arb and the partitions are unchanged, and SUR still holds exactly the words of S and R |
| Closing.MoveToS | SVPAlib/src/learning_symbolic_ce/sfa/SymbolicLearner.java:543-545 | promotion succeeds exactly when r's one-shorter prefix is an access string. r then moves from R to S: S and SUR gain r, R loses its first occurrence of r. f(r) is re-asked and the partitions are reset |
| Closing.Promote | SVPAlib/src/learning_symbolic_ce/sfa/SymbolicLearner.java:543-575 | after promotion S gains r, f gains r, E and arb are unchanged and the partitions are reset. SUR gains r followed by new words, each some r·e with e in E or r·arb, and R is R without its first r followed by those same words. Every r·e is then in SUR, and so is some one-symbol continuation of r |
| Closing.Close | SVPAlib/src/learning_symbolic_ce/sfa/SymbolicLearner.java:519-576 | `close` reports no change exactly when every frontier row is an access string's row, and then changes nothing. Otherwise it promotes r, which has a row no access string has and minimal length among the frontier words with that row. Then r's prefix is in S, f(r) is the oracle's answer, and the partitions are reset. r leaves R, and the only words R and SUR gain are r·e for e in E and possibly r·arb; SUR holds every r·e and a one-symbol continuation of r. It can fail only on a table that is not closed |
| Closing.CloseKeepsWellFormed | SVPAlib/src/learning_symbolic_ce/sfa/SymbolicLearner.java:519-576 | `close` keeps the table well formed |
| Consistency.FindB | SVPAlib/src/learning_symbolic_ce/sfa/SymbolicLearner.java:596-602 | the innermost scan finds a partner continuation that breaks consistency, or proves none does |
| Consistency.FindA | SVPAlib/src/learning_symbolic_ce/sfa/SymbolicLearner.java:594-630 | the scan over the continuations of SUR[i] finds a mismatch for the pair (i, j), or proves none exists |
| Consistency.FindJ | SVPAlib/src/learning_symbolic_ce/sfa/SymbolicLearner.java:581-631 | the scan over the partners j > i finds a mismatch involving SUR[i], or proves none exists |
| Consistency.FindI | SVPAlib/src/learning_symbolic_ce/sfa/SymbolicLearner.java:580-632 | the outer scan finds a mismatch exactly when one exists from position i on |
| Consistency.ConsistentWords | SVPAlib/src/learning_symbolic_ce/sfa/SymbolicLearner.java:579-634 | when make_consistent finds nothing, any two SUR words with equal rows have equal-row continuations along every common suffix present in SUR |
| Consistency.MismatchBreaksWords | SVPAlib/src/learning_symbolic_ce/sfa/SymbolicLearner.java:584-602 | a mismatch it reports is a pair of distinct equal-row SUR words whose continuations by the same suffix have different rows |
| Consistency.FirstDiff | SVPAlib/src/learning_symbolic_ce/sfa/SymbolicLearner.java:607-612 | the evidence index chosen is the first at which the two rows differ |
| Consistency.Repair | SVPAlib/src/learning_symbolic_ce/sfa/SymbolicLearner.java:606-627 | the repair appends one evidence word: the common suffix of a mismatch followed by the first evidence word that separates the continuations. It puts s·e in SUR for every access string s. R and SUR gain only new words of the form s·e with s in S, and nothing else changes |
| Consistency.MakeConsistent | SVPAlib/src/learning_symbolic_ce/sfa/SymbolicLearner.java:579-634 | on a filled table `make_consistent` reports no change exactly when the table is consistent, and then leaves it as it was. Otherwise E grows by exactly one separating evidence word e, and s·e is in SUR for each access string s. R and SUR gain only new words of the form s·e with s in S |
| Consistency.MakeConsistentKeepsWellFormed | SVPAlib/src/learning_symbolic_ce/sfa/SymbolicLearner.java:613-626 | `make_consistent` keeps the table well formed |
| Distribution.Offer | SVPAlib/src/learning_symbolic_ce/sfa/SymbolicLearner.java:664-680 | a continuation is collected exactly when no word with the partner's row already has it; a collected word is new to SUR and to the collection, and the continuation is matched afterwards |
| Distribution.Visit | SVPAlib/src/learning_symbolic_ce/sfa/SymbolicLearner.java:659-702 | after visiting SUR position n for a split pair, both continuation cases of that position are matched and the collection only grew |
| Distribution.DistNDischarges | SVPAlib/src/learning_symbolic_ce/sfa/SymbolicLearner.java:659-702 | after that loop every position's continuation of the split pair is matched |
| Distribution.DistJDischarges | SVPAlib/src/learning_symbolic_ce/sfa/SymbolicLearner.java:646-703 | after that loop every pair (i, j) for later j is discharged |
| Distribution.DistIDischarges | SVPAlib/src/learning_symbolic_ce/sfa/SymbolicLearner.java:645-704 | after the outer loop every split pair is discharged |
| Distribution.Distribute | SVPAlib/src/learning_symbolic_ce/sfa/SymbolicLearner.java:637-713 | `distribute` leaves S, E, f and the partitions untouched. It appends the same new, distinct words to R and SUR, and reports true exactly when it added some. Each added word is the continuation some split pair calls for, and afterwards every split pair's continuations are matched |
| Distribution.DischargedCovers | SVPAlib/src/learning_symbolic_ce/sfa/SymbolicLearner.java:657-680 | for a discharged split pair, the one-symbol continuation of one word is matched by some word with the other's row |
| Distribution.DistributeCovers | SVPAlib/src/learning_symbolic_ce/sfa/SymbolicLearner.java:657-701 | when the last evidence splits u1 from u2 and u1·a is in SUR, afterwards some word with u2's row has its a-continuation in SUR |
| Distribution.DistributeKeepsWellFormed | SVPAlib/src/learning_symbolic_ce/sfa/SymbolicLearner.java:710-712 | `distribute` keeps the table well formed |
| ObservedPartition.ScanTriples | SVPAlib/src/learning_symbolic_ce/sfa/SymbolicLearner.java:329-363 | the scan over a partition's triples resolves each unresolved one with its witness and the access string whose row its continuation has. It stops the first time the continuation's row is undefined, by adding it to R and SUR, or new, by making it an access string with its last symbol as new evidence. It fails only on an unresolved triple with an unsatisfiable guard, or one with a target but no witness, and cannot fail when no such triple remains |
| ObservedPartition.ContinueOutcome | SVPAlib/src/learning_symbolic_ce/sfa/SymbolicLearner.java:326-367 | completing one key and then the rest gives what the whole pass promises |
| ObservedPartition.ScanKeys | SVPAlib/src/learning_symbolic_ce/sfa/SymbolicLearner.java:326-369 | the pass over the access strings from position idx keeps the promise described for completeObservedPartition |
| ObservedPartition.CompleteObservedPartition | SVPAlib/src/learning_symbolic_ce/sfa/SymbolicLearner.java:313-370 | returning false means only the partitions changed; every triple of every access string now has a witness, and each triple resolved in this call has a witness in its guard and an access string target whose row is that of s·witness. Returning true means exactly one change: one continuation joined R and SUR, or became an access string with its last symbol appended to E. It fails only on a blank guard or a target without a witness, and never when there is neither |
| ObservedPartition.ProgressKeepsTotal | SVPAlib/src/learning_symbolic_ce/sfa/SymbolicLearner.java:355-360 | resolving triples never changes guards, so a total partition stays total |
| ObservedPartition.ProgressKeepsTargeted | SVPAlib/src/learning_symbolic_ce/sfa/SymbolicLearner.java:353-361 | resolving a triple sets its target to an access string before its witness, so resolved triples keep targeting access strings |
| ObservedPartition.CompleteKeepsWellFormed | SVPAlib/src/learning_symbolic_ce/sfa/SymbolicLearner.java:313-370 | `completeObservedPartition` keeps the table well formed |
| Counterexample.CoverAppend | SVPAlib/src/learning_symbolic_ce/sfa/SymbolicLearner.java:247-249 | the symbols covered by two lists of triples together are those covered by either |
| Counterexample.DisjointAppend | SVPAlib/src/learning_symbolic_ce/sfa/SymbolicLearner.java:247-249 | a concatenation of triples is disjoint exactly when each part is and their covers do not meet |
| Counterexample.Refine | SVPAlib/src/learning_symbolic_ce/sfa/SymbolicLearner.java:235-251 | the scan of one partition splits something exactly when it appends triples, and a split implies a guard met the predicate. Every guard of the partition is either kept or replaced by one pair of halves, so twice the kept count plus the appended count is twice the partition's size. The appended triples are, pair by pair, the halves g∧c and g∧¬c of a guard g that some part c of the predicate overlaps without equalling, and they are unresolved. The first split is at the first guard that meets the predicate: every earlier guard is kept and neither equals nor meets it, and the first pair is that guard split by the predicate itself. When nothing is split the partition is left as it was |
| Counterexample.Halves | SVPAlib/src/learning_symbolic_ce/sfa/SymbolicLearner.java:245-246 | the two replacement guards p∧c and p∧¬c are disjoint and together cover exactly p |
| Counterexample.RefineKeepsCover | SVPAlib/src/learning_symbolic_ce/sfa/SymbolicLearner.java:240-256 | refining a partition keeps the union of its guards |
| Counterexample.NotFoundMeansNoOverlap | SVPAlib/src/learning_symbolic_ce/sfa/SymbolicLearner.java:240-259 | when no guard met the predicate, the predicate misses every symbol the partition covers |
| Counterexample.SplitKeepsDisjoint | SVPAlib/src/learning_symbolic_ce/sfa/SymbolicLearner.java:247-252 | replacing a guard by its two halves beside a disjoint rest whose cover avoids it keeps disjointness |
| Counterexample.SkipKeepsDisjoint | SVPAlib/src/learning_symbolic_ce/sfa/SymbolicLearner.java:240-256 | keeping a guard in front of a disjoint rest that avoids it keeps disjointness |
| Counterexample.RefineKeepsDisjoint | SVPAlib/src/learning_symbolic_ce/sfa/SymbolicLearner.java:240-256 | refining a disjoint partition keeps its guards pairwise disjoint |
| Counterexample.RefineIsFiner | SVPAlib/src/learning_symbolic_ce/sfa/SymbolicLearner.java:245-247 | refinement only makes a partition finer: every guard of the result lies inside a guard of the original partition |
| Counterexample.RefineKeepsTotal | SVPAlib/src/learning_symbolic_ce/sfa/SymbolicLearner.java:240-257 | refining a total partition gives a total partition |
| Counterexample.RefineKeepsTargeted | SVPAlib/src/learning_symbolic_ce/sfa/SymbolicLearner.java:245-247 | every kept triple is one of the partition's own, unchanged, and the appended triples have neither target nor witness, so every triple with a witness still targets an access string |
| Counterexample.Witnesses | SVPAlib/src/learning_symbolic_ce/sfa/SymbolicLearner.java:229-231 | the witness word exists exactly when every predicate is satisfiable, and its i-th symbol satisfies the i-th predicate |
| Counterexample.Suffixes | SVPAlib/src/learning_symbolic_ce/sfa/SymbolicLearner.java:261-265 | the new evidence words are the |cx| suffixes of the witness word, shortest first, the k-th of length k+1 and ending the witness word |
| Counterexample.Walk | SVPAlib/src/learning_symbolic_ce/sfa/SymbolicLearner.java:229-260 | the walk along the witness prefixes refines the partition at the first position that splits a guard, after positions that met a guard and split nothing. It reports NoRefinement only when every position met a guard and split nothing, and NoOverlap only when some predicate misses its partition. Its other failures happen only when a prefix has no access string or that access string has no partition |
| Counterexample.Process | SVPAlib/src/learning_symbolic_ce/sfa/SymbolicLearner.java:224-267 | on success exactly one partition is refined, the first one a witness prefix's predicate cuts across, and it is replaced by the result of the scan whose contract is stated for Counterexample.Refine. E grows by the witness suffixes, shortest first, and S, R, SUR and f are untouched. It fails with NoWitness exactly when some predicate is unsatisfiable, and NoRefinement means every prefix met a guard and split nothing |
| Counterexample.WellFormedMeetsGuard | SVPAlib/src/learning_symbolic_ce/sfa/SymbolicLearner.java:253 | on a well-formed table the `foundOverlap` assertion cannot fail, because the partitions cover the whole alphabet |
| Counterexample.ProcessKeepsWellFormed | SVPAlib/src/learning_symbolic_ce/sfa/SymbolicLearner.java:224-267 | `process` keeps the table well formed |
| Counterexample.ProcessRefinesOnePartition | SVPAlib/src/learning_symbolic_ce/sfa/SymbolicLearner.java:235-256 | a successful `process` replaces the partition of one access string by one with more triples, the same cover and every guard inside an old guard, and leaves every other partition as it was |
| Words.IndexOf | SVPAlib/src/learning_symbolic_ce/sfa/SymbolicLearner.java:421-422 | `indexOf` is -1 exactly when the word is absent, and otherwise the first position holding it |
| Conjecture.GuardTo | SVPAlib/src/learning_symbolic_ce/sfa/SymbolicLearner.java:387-399 | the separating predicate for a target exists exactly when some triple targets it, and accepts exactly the symbols some such triple's guard accepts |
| Conjecture.MovesOut | SVPAlib/src/learning_symbolic_ce/sfa/SymbolicLearner.java:400-404 | the moves out of state i are exactly one per position of S that some triple targets, to the first index of that access string, guarded by its separating predicate |
| Conjecture.AllMoves | SVPAlib/src/learning_symbolic_ce/sfa/SymbolicLearner.java:384-405 | the move list is the moves out of every state, and is produced exactly when every access string has a partition |
| Conjecture.Finals | SVPAlib/src/learning_symbolic_ce/sfa/SymbolicLearner.java:407-419 | the final states are exactly the indices whose access string f accepts, in increasing order, produced exactly when f classifies every access string |
| Conjecture.BuildSFA | SVPAlib/src/learning_symbolic_ce/sfa/SymbolicLearner.java:372-432 | `buildSFA` fails with NotClosed exactly when some SUR row is not an access string's row. On success the initial state is 0, which holds the empty word; the finals are exactly the accepted access strings; the moves are exactly the per-state moves read off the partitions |
| Conjecture.MovesFollowPartition | SVPAlib/src/learning_symbolic_ce/sfa/SymbolicLearner.java:391-404 | when a triple of state i sends symbol a to an access string, the conjecture has a move from i to that access string's index accepting a |
| Conjecture.MovesComeFromPartition | SVPAlib/src/learning_symbolic_ce/sfa/SymbolicLearner.java:391-404 | every symbol a move accepts is sent to the move's target by some triple of its source's partition |
| Conjecture.SharedSymbolSameEntry | SVPAlib/src/learning_symbolic_ce/sfa/SymbolicLearner.java:391-399 | in a disjoint partition a symbol lies in one guard only |
| Conjecture.BackedSameTarget | SVPAlib/src/learning_symbolic_ce/sfa/SymbolicLearner.java:391-404 | two moves backed by a disjoint partition that share a symbol share their target |
| Conjecture.MovesDeterministic | SVPAlib/src/learning_symbolic_ce/sfa/SymbolicLearner.java:384-405 | on a well-formed table the conjecture is deterministic: two moves out of one state accepting the same symbol go to the same state |
| Conjecture.MovesTotal | SVPAlib/src/learning_symbolic_ce/sfa/SymbolicLearner.java:384-405 | on a well-formed table whose partition of state i targets only access strings, every symbol has a move out of i |
| Learner.Consist | SVPAlib/src/learning_symbolic_ce/sfa/SymbolicLearner.java:65-69 | the make_consistent step reports a change exactly when the table was inconsistent. After a change, E grew by one and the table is filled; without one the table is unchanged |
| Learner.Spread | SVPAlib/src/learning_symbolic_ce/sfa/SymbolicLearner.java:74-76 | the distribute step leaves S and E alone and ends filled |
| Learner.Evidence | SVPAlib/src/learning_symbolic_ce/sfa/SymbolicLearner.java:65-77 | the first half of a pass sets the consistency flag exactly when it was set and the table was inconsistent, and then also sets the close flag. Without it the table and the close flag are unchanged. The table ends filled and still agrees with the oracle |
| Learner.CloseStep | SVPAlib/src/learning_symbolic_ce/sfa/SymbolicLearner.java:82-86 | the close step reports no change exactly when the table is closed, and then leaves it alone; after a change S grew by one and the table is filled |
| Learner.PartitionStep | SVPAlib/src/learning_symbolic_ce/sfa/SymbolicLearner.java:91-92 | when completeObservedPartition reports no change, every access string's partition is complete; the table ends filled and still agrees with the oracle |
| Learner.Round | SVPAlib/src/learning_symbolic_ce/sfa/SymbolicLearner.java:61-93 | a pass of the loop body ends with a filled table that still agrees with the oracle. A cleared consistency flag means every access string's partition is complete. Failures are those of close and completeObservedPartition |
| Learner.Stabilize | SVPAlib/src/learning_symbolic_ce/sfa/SymbolicLearner.java:61-94 | when the loop exits, the table is filled and every access string's partition is complete; a well-formed table that agrees with the oracle stays so through all passes |
| Learner.ConsistKeepsWellFormed | SVPAlib/src/learning_symbolic_ce/sfa/SymbolicLearner.java:65-69 | the make_consistent step keeps the table well formed |
| Learner.SpreadKeepsWellFormed | SVPAlib/src/learning_symbolic_ce/sfa/SymbolicLearner.java:74-76 | the distribute step keeps the table well formed |
| Learner.EvidenceKeepsWellFormed | SVPAlib/src/learning_symbolic_ce/sfa/SymbolicLearner.java:65-77 | the first half of a pass keeps the table well formed |
| Learner.CloseStepKeepsWellFormed | SVPAlib/src/learning_symbolic_ce/sfa/SymbolicLearner.java:82-86 | the close step keeps the table well formed |
| Learner.PartitionStepKeepsWellFormed | SVPAlib/src/learning_symbolic_ce/sfa/SymbolicLearner.java:91-92 | the partition step keeps the table well formed |
| Learner.RoundKeepsWellFormed | SVPAlib/src/learning_symbolic_ce/sfa/SymbolicLearner.java:61-93 | a whole pass keeps the table well formed |
| Learner.StabilizedTable | SVPAlib/src/learning_symbolic_ce/sfa/SymbolicLearner.java:56-94 | starting from a well-formed table that agrees with the oracle, the table the loop leaves is well formed and agrees with the oracle. Every SUR row is the oracle's answers on E. Every access string's partition has a witness and an access string target for each guard. When buildSFA succeeds on it, the conjecture has a move out of every state for every symbol |
| Learner.CompleteTableTotal | SVPAlib/src/learning_symbolic_ce/sfa/SymbolicLearner.java:384-405 | on a well-formed table whose partitions are complete, every triple targets an access string, so the moves buildSFA reads off the partitions accept every symbol out of every state |

## Left out

- The `SFA` library calls `SFA.MkSFA`, `mkTotal` and `accepts` are not modelled, and neither is `consistent`, which depends on them (SymbolicLearner.java:271-283). `BuildSFA` returns a plain automaton datatype of moves, initial state and finals.
- The outer loop of `learn` is left out. It covers the equivalence query, building the conjecture and processing the counterexample (SymbolicLearner.java:95-127). The teacher is external and the loop has no termination measure. Only the inner fixpoint loop is modelled.
- Learner.Stabilize: bounded by fuel. When the fuel runs out it reports `OutOfFuel` where the source would keep looping.
- Learner.Stabilize: does not state that the table is closed or consistent on exit. The loop condition reads only the flags of the last pass, and that pass may skip `close`, or call `make_consistent` only before a change that makes the table inconsistent again. The model proves filledness, complete partitions and the invariants only.
- The concrete `BooleanAlgebra` and its solver, and `TimeoutException`, are not modelled. Predicates are sets of symbols and every solver call is total.
- Not modelled: debug logging, `toString`, the membership-query counters, and the `nullMap` field, which is written but never read.
- Hash-set and hash-map iteration orders are fixed to list order:
  - `make_consistent`'s continuation sets are visited in SUR order;
  - the words `distribute` collects are appended in the order they are found;
  - `completeObservedPartition` visits the partition keys in the order of S.

  The source leaves these orders unspecified. A different order can pick a different mismatch or a different continuation. It does not change any property stated here.
- ObservedPartition.CompleteObservedPartition visits only the keys that are access strings. On a well-formed table these are all the keys.
- ObservedPartition.CompleteObservedPartition: states soundness only for the triples it resolves itself. Soundness means the witness is in the guard and the target has the continuation's row. The source re-examines only triples without a witness, so a triple resolved in an earlier pass is kept as it is. Its target may no longer have that row once E has grown. That its target is an access string is still kept, as part of `WellFormed`.
- Counterexample.Process: computes all witnesses up front and fails with `NoWitness` when a predicate is unsatisfiable. The source instead puts a null symbol into its prefix and its evidence words.
- Counterexample.Refine: `newPart.remove(part)` is modelled as removing that very triple, as the triples are distinct objects.
- ObservationTable.GetAccessString: returns no access string when the row of the prefix is undefined, where the source would throw. `process` reports both cases as `NoAccessString`.
- Distribution.Distribute: on a table that is not filled, the model treats an unasked entry as "not split" where the source would throw. The learner always fills before distributing.
- Java `assert`s and the null dereferences next to them become `Err` outcomes:
  - `close` and `addState`: a promoted word whose prefix is not an access string (SymbolicLearner.java:293);
  - `completeObservedPartition`: a missing witness (SymbolicLearner.java:333) and a target set without a witness (SymbolicLearner.java:358);
  - `process`: no overlap (SymbolicLearner.java:253) and no refinement (SymbolicLearner.java:259);
  - `buildSFA`: SymbolicLearner.java:380, 389, 414 and 422.

  "Table filled" is a precondition of `close` and `make_consistent`.

=== FILE: base.dfy ===
/** Outcome types shared by the whole model.  The learner's Java `assert`s and
    null dereferences become explicit faults, so that a caller can tell an
    internal-logic error apart from a successful step. */
module Base {

  datatype Option<+T> = None | Some(value: T)

  /** Why a table operation gave up.  Each constructor names the check of the
      learner that would have failed. */
  datatype Fault =
    | EmptyStateString      // addState on the empty word: its prefix does not exist
    | PrefixNotInS          // addState: the one-shorter prefix is not an access string
    | NoWitness             // generateWitness was asked for an unsatisfiable predicate
    | TargetWithoutWitness  // completeObservedPartition: a triple has a target but no witness
    | NoAccessString        // process: a prefix of the counterexample reaches no state
    | MissingPartition      // an access string has no observed partition
    | NoOverlap             // process: no triple overlaps the counterexample predicate
    | NoRefinement          // process: the counterexample refined no partition
    | NotClosed             // buildSFA: some row of SUR is not the row of an access string
    | MissingFinal          // buildSFA: the membership of an access string is unknown
    | InitNotFirst          // buildSFA: the empty word is not the first access string
    | OutOfFuel             // the maintenance loop did not settle within its step bound

  datatype Result<+T> = Ok(value: T) | Err(fault: Fault) {
    predicate IsFailure() { Err? }

    function PropagateFailure<U>(): Result<U>
      requires Err?
    {
      Err(fault)
    }

    function Extract(): T
      requires Ok?
    {
      value
    }
  }
}

=== FILE: close.dfy ===
/** `close` and its helper `addState`: promote a frontier word whose row is
    new into an access string. */
module Closing {
  import opened Base
  import opened Words
  import opened ObservationTable

  /** The first index of R, from `k` on, whose row is not the row of any
      access string. */
  function FirstOpen(t: Table, k: nat): (r: Option<nat>)
    requires k <= |t.R|
    ensures r.Some? ==> k <= r.value < |t.R| && !RowInS(t, t.R[r.value])
    ensures r.Some? ==> forall j :: k <= j < r.value ==> RowInS(t, t.R[j])
    ensures r.None? ==> forall j :: k <= j < |t.R| ==> RowInS(t, t.R[j])
    decreases |t.R| - k
  {
    if k == |t.R| then None
    else if !RowInS(t, t.R[k]) then Some(k)
    else FirstOpen(t, k + 1)
  }

  /** The tie-break of close: scanning R from `k`, `best` is replaced by any
      other word with the row of `r` that is strictly shorter. */
  function Shortest(t: Table, r: Word, best: Word, k: nat): (b: Word)
    requires k <= |t.R| && r in t.R
    requires best in t.R && Row(t, best) == Row(t, r) && |best| <= |r|
    ensures b in t.R && Row(t, b) == Row(t, r) && |b| <= |best|
    ensures forall j :: k <= j < |t.R| && Row(t, t.R[j]) == Row(t, r) ==> |b| <= |t.R[j]|
    decreases |t.R| - k
  {
    if k == |t.R| then best
    else
      var rp := t.R[k];
      var best' := if Row(t, rp) == Row(t, r) && rp != r && |rp| < |best| then rp else best;
      Shortest(t, r, best', k + 1)
  }

  /** `List.remove(Object)`: drops the first occurrence of `x`. */
  function RemoveFirst(ws: seq<Word>, x: Word): (r: seq<Word>)
    ensures x in ws ==> |r| == |ws| - 1
    ensures x !in ws ==> r == ws
    ensures forall w :: w in r ==> w in ws
    ensures forall w :: w in ws && w != x ==> w in r
  {
    if |ws| == 0 then []
    else if ws[0] == x then ws[1..]
    else
      [ws[0]] + RemoveFirst(ws[1..], x)
  }

  /** The occurrence `RemoveFirst` drops is the first one: the result is `ws`
      with the position `indexOf` reports cut out. */
  lemma {:induction false} RemoveFirstCutsFirst(ws: seq<Word>, x: Word)
    requires x in ws
    ensures var i := IndexOf(ws, x); RemoveFirst(ws, x) == ws[..i] + ws[i + 1..]
    decreases |ws|
  {
    if ws[0] != x {
      var tl := ws[1..];
      assert x in tl by { assert ws == [ws[0]] + tl; }
      RemoveFirstCutsFirst(tl, x);
      var i := IndexOf(tl, x);
      assert IndexOf(ws, x) == i + 1;
      assert RemoveFirst(ws, x) == [ws[0]] + (tl[..i] + tl[i + 1..]);
      assert ws[..i + 1] == [ws[0]] + tl[..i];
      assert ws[i + 2..] == tl[i + 1..];
    }
  }

  /** The words r·e for e in E, in the order of E. */
  function Extensions(r: Word, E: seq<Word>): (ws: seq<Word>)
    ensures |ws| == |E| && forall k :: 0 <= k < |E| ==> ws[k] == r + E[k]
  {
    seq(|E|, k requires 0 <= k < |E| => r + E[k])
  }

  /** `w` is one of the words close may append after promoting `r`: some
      r·e for e in E, or the fallback continuation r·arb. */
  ghost predicate ClosureWord(E: seq<Word>, arb: Sym, r: Word, w: Word)
  {
    (exists e :: e in E && w == r + e) || w == r + [arb]
  }

  ghost predicate ClosureWords(E: seq<Word>, arb: Sym, r: Word, ws: seq<Word>)
  {
    forall w :: w in ws ==> ClosureWord(E, arb, r, w)
  }

  /** Some word of SUR extends `r` by exactly one symbol. */
  predicate HasContinuation(SUR: seq<Word>, r: Word)
  {
    exists w :: w in SUR && |w| == |r| + 1 && IsPrefix(r, w)
  }

  lemma ContinuationIsOneSymbol(SUR: seq<Word>, r: Word)
    requires HasContinuation(SUR, r)
    ensures exists a :: r + [a] in SUR
  {
    var w :| w in SUR && |w| == |r| + 1 && IsPrefix(r, w);
    assert w == r + [w[|r|]];
  }

  /** The last step of close: when no word of SUR continues `r` by one
      symbol, append r·arb to R and SUR. */
  ghost function EnsureContinuation(t: Table, r: Word): (t': Table)
    ensures exists a :: r + [a] in t'.SUR
    ensures t'.S == t.S && t'.E == t.E && t'.f == t.f && t'.partitions == t.partitions && t'.arb == t.arb
    ensures |t'.SUR| >= |t.SUR| && t'.SUR[..|t.SUR|] == t.SUR
    ensures t'.R == t.R + t'.SUR[|t.SUR|..]
    ensures forall k :: |t.SUR| <= k < |t'.SUR| ==> t'.SUR[k] == r + [t.arb]
    ensures SurIsSR(t) ==> SurIsSR(t')
  {
    if HasContinuation(t.SUR, r) then
      ContinuationIsOneSymbol(t.SUR, r);
      t
    else
      var t' := t.(R := t.R + [r + [t.arb]], SUR := t.SUR + [r + [t.arb]]);
      assert r + [t.arb] in t'.SUR;
      assert t'.SUR[|t.SUR|..] == [r + [t.arb]];
      t'
  }

  /** addState followed by `R.remove(r)`. */
  ghost function MoveToS(t: Table, r: Word, mem: Oracle): (res: Result<Table>)
    ensures res.Ok? <==> |r| > 0 && r[..|r| - 1] in t.S
    ensures res.Ok? ==> var t' := res.value;
      && t'.S == t.S + [r] && t'.SUR == t.SUR + [r] && t'.E == t.E
      && t'.R == RemoveFirst(t.R, r)
      && t'.f == t.f[r := mem(r)] && t'.arb == t.arb
      && t'.partitions == FreshPartitions(t'.S)
      && (SurIsSR(t) ==> SurIsSR(t'))
  {
    var t1 :- AddState(t, r, mem);
    Ok(t1.(R := RemoveFirst(t1.R, r)))
  }

  /** The evidence loop of close: r·e for every evidence e, appended to R
      and SUR unless already in SUR. */
  ghost function AddEvidence(t: Table, r: Word): (t': Table)
    ensures FrontierGrew(t, t')
    ensures forall e :: e in t.E ==> r + e in t'.SUR
    ensures ClosureWords(t.E, t.arb, r, t'.SUR[|t.SUR|..])
  {
    var t' := ExtendFrontier(t, Extensions(r, t.E));
    assert forall e :: e in t.E ==> r + e in Extensions(r, t.E);
    ExtensionsAreClosure(t.E, t.arb, r, t'.SUR[|t.SUR|..]);
    t'
  }

  lemma ExtensionsAreClosure(E: seq<Word>, arb: Sym, r: Word, ws: seq<Word>)
    requires forall w :: w in ws ==> w in Extensions(r, E)
    ensures ClosureWords(E, arb, r, ws)
  {
    forall w | w in ws
      ensures ClosureWord(E, arb, r, w)
    {
      var k :| 0 <= k < |E| && Extensions(r, E)[k] == w;
      assert E[k] in E;
    }
  }

  /** The words the evidence closure of `r` appends are some r·e for e in
      E and possibly r·arb, and they are appended to R as well. */
  lemma NewWordsOfEvidence(t: Table, r: Word, t3: Table, t4: Table)
    requires |t3.SUR| >= |t.SUR| && t3.SUR == t.SUR + t3.SUR[|t.SUR|..] && t3.R == t.R + t3.SUR[|t.SUR|..]
    requires ClosureWords(t.E, t.arb, r, t3.SUR[|t.SUR|..])
    requires |t4.SUR| >= |t3.SUR| && t4.SUR[..|t3.SUR|] == t3.SUR && t4.R == t3.R + t4.SUR[|t3.SUR|..]
    requires t3.arb == t.arb && forall k :: |t3.SUR| <= k < |t4.SUR| ==> t4.SUR[k] == r + [t3.arb]
    ensures t4.SUR[..|t.SUR|] == t.SUR
    ensures t4.R == t.R + t4.SUR[|t.SUR|..]
    ensures ClosureWords(t.E, t.arb, r, t4.SUR[|t.SUR|..])
  {
    var n := |t.SUR|;
    var a3, a4 := t3.SUR[n..], t4.SUR[|t3.SUR|..];
    assert t4.SUR == t3.SUR + a4;
    assert t4.SUR[n..] == a3 + a4;
    assert t4.R == t.R + a3 + a4;
    forall w | w in a3 + a4
      ensures ClosureWord(t.E, t.arb, r, w)
    {
      if w !in a3 {
        var k :| 0 <= k < |a4| && a4[k] == w;
        assert w == t4.SUR[|t3.SUR| + k];
      }
    }
  }

  /** The evidence closure of `r`: r·e for every evidence e, then r·arb
      when no word of SUR continues `r` by one symbol. */
  ghost function CloseEvidence(t: Table, r: Word): (t': Table)
    ensures t'.S == t.S && t'.E == t.E && t'.f == t.f && t'.arb == t.arb && t'.partitions == t.partitions
    ensures forall e :: e in t.E ==> r + e in t'.SUR
    ensures exists a :: r + [a] in t'.SUR
    ensures |t'.SUR| >= |t.SUR| && t'.SUR[..|t.SUR|] == t.SUR
    ensures t'.R == t.R + t'.SUR[|t.SUR|..]
    ensures ClosureWords(t.E, t.arb, r, t'.SUR[|t.SUR|..])
    ensures SurIsSR(t) ==> SurIsSR(t')
  {
    var t3 := AddEvidence(t, r);
    FrontierGrewKeepsSurIsSR(t, t3);
    var t4 := EnsureContinuation(t3, r);
    NewWordsOfEvidence(t, r, t3, t4);
    t4
  }

  /** The promotion half of close, once the word `r` has been chosen. */
  ghost function Promote(t: Table, r: Word, mem: Oracle): (res: Result<Table>)
    ensures res.Ok? <==> |r| > 0 && r[..|r| - 1] in t.S
    ensures res.Ok? ==>
      var t' := res.value;
      && t'.S == t.S + [r]
      && t'.f == t.f[r := mem(r)]
      && t'.E == t.E && t'.arb == t.arb
      && t'.partitions == FreshPartitions(t'.S)
      && (forall e :: e in t.E ==> r + e in t'.SUR)
      && (exists a :: r + [a] in t'.SUR)
      && |t'.SUR| > |t.SUR| && t'.SUR[..|t.SUR| + 1] == t.SUR + [r]
      && t'.R == RemoveFirst(t.R, r) + t'.SUR[|t.SUR| + 1..]
      && ClosureWords(t.E, t.arb, r, t'.SUR[|t.SUR| + 1..])
      && (SurIsSR(t) ==> SurIsSR(t'))
  {
    var t2 :- MoveToS(t, r, mem);
    var t4 := CloseEvidence(t2, r);
    assert |t2.SUR| == |t.SUR| + 1;
    Ok(t4)
  }

  /** `close(o)`.  On a filled table it reports no change exactly when the
      table is closed.  Otherwise it promotes r, a shortest frontier word
      among those sharing the row of the first open one: r becomes the last
      access string, its membership is asked again, every partition is reset,
      and SUR is extended so that it holds r·e for every evidence e and some
      one-symbol extension of r.  It fails only when r's prefix is not an
      access string. */
  ghost function Close(t: Table, mem: Oracle): (res: Result<(Table, bool)>)
    requires Filled(t)
    ensures (res.Ok? && !res.value.1) <==> Closed(t)
    ensures res.Ok? && !res.value.1 ==> res.value.0 == t
    ensures res.Err? ==> !Closed(t)
    ensures res.Ok? && res.value.1 ==>
      var t' := res.value.0;
      && |t'.S| == |t.S| + 1 && t'.S[..|t.S|] == t.S
      && var r := t'.S[|t.S|];
      && r in t.R && !RowInS(t, r)
      && (forall rp :: rp in t.R && Row(t, rp) == Row(t, r) ==> |r| <= |rp|)
      && |r| > 0 && r[..|r| - 1] in t.S
      && t'.f == t.f[r := mem(r)]
      && t'.E == t.E && t'.arb == t.arb
      && t'.partitions == FreshPartitions(t'.S)
      && (forall e :: e in t.E ==> r + e in t'.SUR)
      && (exists a :: r + [a] in t'.SUR)
      && |t'.SUR| > |t.SUR| && t'.SUR[..|t.SUR| + 1] == t.SUR + [r]
      && t'.R == RemoveFirst(t.R, r) + t'.SUR[|t.SUR| + 1..]
      && ClosureWords(t.E, t.arb, r, t'.SUR[|t.SUR| + 1..])
  {
    match FirstOpen(t, 0)
    case None => Ok((t, false))
    case Some(i) =>
      var r := Shortest(t, t.R[i], t.R[i], 0);
      assert !RowInS(t, r);
      var t' :- Promote(t, r, mem);
      assert t'.S[..|t.S|] == t.S;
      Ok((t', true))
  }

  /** Close keeps the bookkeeping invariants. */
  lemma CloseKeepsWellFormed(t: Table, mem: Oracle)
    requires Filled(t) && WellFormed(t)
    ensures Close(t, mem).Ok? ==> WellFormed(Close(t, mem).value.0)
  {
    if Close(t, mem).Ok? && Close(t, mem).value.1 {
      var i := FirstOpen(t, 0).value;
      var r := Shortest(t, t.R[i], t.R[i], 0);
      var t' := Promote(t, r, mem).value;
      assert Close(t, mem).value.0 == t';
      assert SurIsSR(t);
      assert SurIsSR(t') && t'.S[0] == [] && t'.E == t.E;
      assert t'.partitions == FreshPartitions(t'.S);
    }
  }
}

=== FILE: conjecture.dfy ===
/** `buildSFA`: the conjectured automaton.  States are the positions of S,
    state 0 (the empty word) is initial, an access string is final when the
    table classifies it as accepted, and the moves out of a state are read
    off its observed partition: one move per target, guarded by the union of
    the guards that lead there. */
module Conjecture {
  import opened Base
  import opened Words
  import opened Predicates
  import opened ObservationTable

  datatype Move = Move(from: nat, to: nat, guard: Pred)

  datatype Automaton = Automaton(moves: seq<Move>, init: nat, finals: seq<nat>)

  /** The union of the guards of the triples of `ps` whose target is `s`,
      or `None` when no triple targets `s`. */
  ghost function GuardTo(ps: seq<Triple>, s: Word): (r: Option<Pred>)
    ensures r.Some? <==> exists k :: 0 <= k < |ps| && ps[k].target == Some(s)
    ensures r.Some? ==> forall a :: a in r.value <==> exists k :: 0 <= k < |ps| && ps[k].target == Some(s) && a in ps[k].guard
    decreases |ps|
  {
    if |ps| == 0 then None
    else
      var rest := GuardTo(ps[1..], s);
      assert forall k :: 1 <= k < |ps| ==> ps[k] == ps[1..][k - 1];
      if ps[0].target == Some(s) then
        match rest
        case None => Some(ps[0].guard)
        case Some(g) => Some(Or(g, ps[0].guard))
      else rest
  }

  /** The moves out of state i, one per position k.. of S that some triple
      of `ps` targets, in the order of S. */
  ghost function MovesOut(S: seq<Word>, i: nat, ps: seq<Triple>, k: nat): (ms: seq<Move>)
    requires k <= |S|
    ensures forall m :: m in ms ==> m.from == i
    ensures forall m :: m in ms <==> (exists j ::
                                      k <= j < |S| && GuardTo(ps, S[j]).Some? && m == Move(i, IndexOf(S, S[j]), GuardTo(ps, S[j]).value))
    decreases |S| - k
  {
    if k == |S| then []
    else
      var rest := MovesOut(S, i, ps, k + 1);
      match GuardTo(ps, S[k])
      case None => rest
      case Some(g) => [Move(i, IndexOf(S, S[k]), g)] + rest
  }

  /** The moves out of states i.. in order, or the fault of a state
      without a partition. */
  ghost function AllMoves(t: Table, i: nat): (r: Result<seq<Move>>)
    requires i <= |t.S|
    ensures r.Ok? <==> forall j :: i <= j < |t.S| ==> t.S[j] in t.partitions
    ensures r.Err? ==> r.fault == MissingPartition
    ensures r.Ok? ==> forall m :: m in r.value <==> exists j :: i <= j < |t.S| && m in MovesOut(t.S, j, t.partitions[t.S[j]], 0)
    decreases |t.S| - i
  {
    if i == |t.S| then Ok([])
    else if t.S[i] !in t.partitions then Err(MissingPartition)
    else
      var rest :- AllMoves(t, i + 1);
      Ok(MovesOut(t.S, i, t.partitions[t.S[i]], 0) + rest)
  }

  /** The final states among positions i.. of S, in increasing order, or the
      fault of an access string the table has not classified. */
  function Finals(t: Table, i: nat): (r: Result<seq<nat>>)
    requires i <= |t.S|
    ensures r.Ok? <==> forall j :: i <= j < |t.S| ==> t.S[j] in t.f
    ensures r.Err? ==> r.fault == MissingFinal
    ensures r.Ok? ==> forall j :: j in r.value <==> i <= j < |t.S| && t.f[t.S[j]]
    ensures r.Ok? ==> forall a, b :: 0 <= a < b < |r.value| ==> r.value[a] < r.value[b]
    decreases |t.S| - i
  {
    if i == |t.S| then Ok([])
    else if t.S[i] !in t.f then Err(MissingFinal)
    else
      var rest :- Finals(t, i + 1);
      assert forall b :: 0 <= b < |rest| ==> rest[b] in rest && rest[b] > i;
      if t.f[t.S[i]] then Ok([i] + rest) else Ok(rest)
  }

  /** Every word of SUR has the row of some access string. */
  predicate RowsCovered(t: Table)
  {
    forall w :: w in t.SUR ==> RowInS(t, w)
  }

  /** `buildSFA()`.  The checks run in the order of the source: every SUR
      row is a state's row (an undefined row matches an access string whose
      row is undefined too, as a null key does in the `states` map), every
      state has a partition, every state is classified, and the empty word
      is state 0. */
  ghost function BuildSFA(t: Table): (r: Result<Automaton>)
    ensures r.Err? && r.fault == NotClosed <==> !RowsCovered(t)
    ensures r.Err? ==> r.fault in {NotClosed, MissingPartition, MissingFinal, InitNotFirst}
    ensures r.Ok? ==> RowsCovered(t) && |t.S| > 0 && t.S[0] == [] && r.value.init == 0
    ensures r.Ok? ==> forall i :: i in r.value.finals <==> 0 <= i < |t.S| && t.S[i] in t.f && t.f[t.S[i]]
    ensures r.Ok? ==> forall m :: m in r.value.moves <==>
      exists i :: 0 <= i < |t.S| && t.S[i] in t.partitions && m in MovesOut(t.S, i, t.partitions[t.S[i]], 0)
  {
    if !RowsCovered(t) then Err(NotClosed)
    else
      var moves :- AllMoves(t, 0);
      var finals :- Finals(t, 0);
      var init := IndexOf(t.S, []);
      if init != 0 then Err(InitNotFirst)
      else Ok(Automaton(moves, init, finals))
  }

  /** The conjecture follows the partitions: when a resolved triple of state
      i's partition sends symbol `a` to access string `s`, a move from i to
      the first position of `s` accepts `a`. */
  lemma MovesFollowPartition(t: Table, i: nat, k: nat, a: Sym)
    requires BuildSFA(t).Ok? && i < |t.S|
    requires t.S[i] in t.partitions && k < |t.partitions[t.S[i]]|
    requires var x := t.partitions[t.S[i]][k]; x.target.Some? && x.target.value in t.S && a in x.guard
    ensures (exists m ::
               m in BuildSFA(t).value.moves && m.from == i && m.to == IndexOf(t.S, t.partitions[t.S[i]][k].target.value) && a in m.guard)
  {
    var ps := t.partitions[t.S[i]];
    var s := ps[k].target.value;
    var j := IndexOf(t.S, s);
    var g := GuardTo(ps, t.S[j]);
    var m := Move(i, IndexOf(t.S, t.S[j]), g.value);
    assert m in MovesOut(t.S, i, ps, 0);
  }

  /** Move `m` accepting `a` is backed by the partition of its source: its
      endpoints are states, its target is the first position of its access
      string, and some triple of the source's partition sends `a` there. */
  ghost predicate Backed(t: Table, m: Move, a: Sym)
  {
    && m.from < |t.S| && m.to < |t.S| && t.S[m.from] in t.partitions
    && m.to == IndexOf(t.S, t.S[m.to])
    && exists k :: 0 <= k < |t.partitions[t.S[m.from]]| && Sends(t.partitions[t.S[m.from]][k], a, t.S[m.to])
  }

  /** Triple `x` sends symbol `a` to access string `s`. */
  ghost predicate Sends(x: Triple, a: Sym, s: Word)
  {
    x.target == Some(s) && a in x.guard
  }

  /** Conversely, every move is backed by the partition of its source:
      each symbol it accepts is sent to its target by some triple. */
  lemma MovesComeFromPartition(t: Table, m: Move, a: Sym)
    requires BuildSFA(t).Ok? && m in BuildSFA(t).value.moves && a in m.guard
    ensures Backed(t, m, a)
  {
    var i :| 0 <= i < |t.S| && t.S[i] in t.partitions && m in MovesOut(t.S, i, t.partitions[t.S[i]], 0);
    var ps := t.partitions[t.S[i]];
    var j :| 0 <= j < |t.S| && GuardTo(ps, t.S[j]).Some? && m == Move(i, IndexOf(t.S, t.S[j]), GuardTo(ps, t.S[j]).value);
    var k :| 0 <= k < |ps| && ps[k].target == Some(t.S[j]) && a in ps[k].guard;
    assert Sends(ps[k], a, t.S[m.to]);
  }

  /** On a well-formed table the conjecture is deterministic: two moves out
      of the same state that accept the same symbol go to the same state. */
  lemma {:induction false} MovesDeterministic(t: Table, m1: Move, m2: Move, a: Sym)
    requires WellFormed(t) && BuildSFA(t).Ok?
    requires m1 in BuildSFA(t).value.moves && m2 in BuildSFA(t).value.moves
    requires m1.from == m2.from && a in m1.guard && a in m2.guard
    ensures m1.to == m2.to
  {
    MovesComeFromPartition(t, m1, a);
    MovesComeFromPartition(t, m2, a);
    assert Total(t.partitions[t.S[m1.from]]);
    BackedSameTarget(t, m1, m2, a);
  }

  /** Two backed moves out of a state with a disjoint partition that share a
      symbol share their target. */
  lemma {:induction false} BackedSameTarget(t: Table, m1: Move, m2: Move, a: Sym)
    requires Backed(t, m1, a) && Backed(t, m2, a) && m1.from == m2.from
    requires Disjoint(t.partitions[t.S[m1.from]])
    ensures m1.to == m2.to
  {
    var ps := t.partitions[t.S[m1.from]];
    var k1 :| 0 <= k1 < |ps| && Sends(ps[k1], a, t.S[m1.to]);
    var k2 :| 0 <= k2 < |ps| && Sends(ps[k2], a, t.S[m2.to]);
    SharedSymbolSameEntry(ps, k1, k2, a);
  }

  /** In a disjoint partition a symbol lies in the guard of one entry only. */
  lemma SharedSymbolSameEntry(ps: seq<Triple>, k1: nat, k2: nat, a: Sym)
    requires Disjoint(ps) && k1 < |ps| && k2 < |ps|
    ensures a in ps[k1].guard && a in ps[k2].guard ==> k1 == k2
  {
    if k1 != k2 {
      var lo, hi := if k1 < k2 then k1 else k2, if k1 < k2 then k2 else k1;
      var both := ps[lo].guard * ps[hi].guard;
      assert both == iset{};
      assert a !in both;
      assert a in ps[lo].guard && a in ps[hi].guard ==> a in both;
    }
  }

  /** Some move of `A` out of state `i` accepts `a`. */
  ghost predicate Leaves(A: Automaton, i: nat, a: Sym)
  {
    exists m :: m in A.moves && m.from == i && a in m.guard
  }

  /** On a well-formed table whose partition of state i sends every guard to
      an access string, every symbol has a move out of i. */
  lemma {:induction false} MovesTotal(t: Table, i: nat, a: Sym)
    requires WellFormed(t) && BuildSFA(t).Ok? && i < |t.S|
    requires forall k :: 0 <= k < |t.partitions[t.S[i]]| ==>
               t.partitions[t.S[i]][k].target.Some? && t.partitions[t.S[i]][k].target.value in t.S
    ensures exists m :: m in BuildSFA(t).value.moves && m.from == i && a in m.guard
  {
    var ps := t.partitions[t.S[i]];
    assert Total(ps);
    assert a in Cover(ps);
    var k :| 0 <= k < |ps| && a in ps[k].guard;
    MovesFollowPartition(t, i, k, a);
  }
}

=== FILE: consistency.dfy ===
/** `make_consistent`: find two SUR words with equal rows whose continuations
    by a common suffix have different rows, and add the evidence that tells
    them apart. */
module Consistency {
  import opened Base
  import opened Words
  import opened ObservationTable

  /** SUR[i] and SUR[j] (i < j) have equal rows, SUR[a] and SUR[b] continue
      them by the same suffix, and the rows of SUR[a] and SUR[b] differ. */
  predicate Mismatch(t: Table, i: nat, j: nat, a: nat, b: nat)
  {
    && i < j < |t.SUR| && a < |t.SUR| && b < |t.SUR|
    && Row(t, t.SUR[i]) == Row(t, t.SUR[j])
    && IsPrefix(t.SUR[i], t.SUR[a]) && IsPrefix(t.SUR[j], t.SUR[b])
    && GetSuffix(t.SUR[i], t.SUR[a]) == GetSuffix(t.SUR[j], t.SUR[b])
    && Row(t, t.SUR[a]) != Row(t, t.SUR[b])
  }

  /** The table is consistent: no positions of SUR form a mismatch. */
  predicate Consistent(t: Table)
  {
    forall i: nat, j: nat, a: nat, b: nat
      | i < |t.SUR| && j < |t.SUR| && a < |t.SUR| && b < |t.SUR| :: !Mismatch(t, i, j, a, b)
  }

  datatype Quad = Quad(i: nat, j: nat, a: nat, b: nat)

  /** The innermost loop, over the continuations w2a of SUR[j]. */
  function FindB(t: Table, i: nat, j: nat, a: nat, b: nat): (r: Option<Quad>)
    requires b <= |t.SUR|
    ensures r.Some? ==> r.value.i == i && r.value.j == j && r.value.a == a
    ensures r.Some? ==> Mismatch(t, i, j, a, r.value.b)
    ensures r.None? ==> forall b': nat :: b <= b' < |t.SUR| ==> !Mismatch(t, i, j, a, b')
    decreases |t.SUR| - b
  {
    if b == |t.SUR| then None
    else if Mismatch(t, i, j, a, b) then Some(Quad(i, j, a, b))
    else FindB(t, i, j, a, b + 1)
  }

  /** The loop over the continuations w1a of SUR[i]. */
  function FindA(t: Table, i: nat, j: nat, a: nat): (r: Option<Quad>)
    requires i < j < |t.SUR| && a <= |t.SUR|
    ensures r.Some? ==> r.value.i == i && r.value.j == j
    ensures r.Some? ==> Mismatch(t, r.value.i, r.value.j, r.value.a, r.value.b)
    ensures r.None? ==> forall a': nat, b': nat :: a <= a' < |t.SUR| && b' < |t.SUR| ==> !Mismatch(t, i, j, a', b')
    decreases |t.SUR| - a
  {
    if a == |t.SUR| then None
    else if IsPrefix(t.SUR[i], t.SUR[a]) then
      match FindB(t, i, j, a, 0)
      case Some(q) => Some(q)
      case None => FindA(t, i, j, a + 1)
    else FindA(t, i, j, a + 1)
  }

  /** The loop over the partners SUR[j], j > i. */
  function FindJ(t: Table, i: nat, j: nat): (r: Option<Quad>)
    requires i < j <= |t.SUR|
    ensures r.Some? ==> r.value.i == i
    ensures r.Some? ==> Mismatch(t, r.value.i, r.value.j, r.value.a, r.value.b)
    ensures r.None? ==> forall j': nat, a': nat, b': nat :: j <= j' < |t.SUR| && a' < |t.SUR| && b' < |t.SUR| ==> !Mismatch(t, i, j', a', b')
    decreases |t.SUR| - j
  {
    if j == |t.SUR| then None
    else if Row(t, t.SUR[i]) == Row(t, t.SUR[j]) then
      match FindA(t, i, j, 0)
      case Some(q) => Some(q)
      case None => FindJ(t, i, j + 1)
    else FindJ(t, i, j + 1)
  }

  /** The outer loop over SUR[i]. */
  function FindI(t: Table, i: nat): (r: Option<Quad>)
    requires i <= |t.SUR|
    ensures r.Some? ==> Mismatch(t, r.value.i, r.value.j, r.value.a, r.value.b)
    ensures r.None? ==> forall i': nat, j': nat, a': nat, b': nat :: i <= i' && j' < |t.SUR| && a' < |t.SUR| && b' < |t.SUR| ==> !Mismatch(t, i', j', a', b')
    decreases |t.SUR| - i
  {
    if i == |t.SUR| then None
    else
      match FindJ(t, i, i + 1)
      case Some(q) => Some(q)
      case None => FindI(t, i + 1)
  }

  /** What consistency means for words: SUR words with equal rows have
      equal-row continuations along a common suffix. */
  lemma {:induction false} ConsistentWords(t: Table, w1: Word, w2: Word, u1: Word, u2: Word)
    requires Consistent(t)
    requires w1 in t.SUR && w2 in t.SUR && u1 in t.SUR && u2 in t.SUR
    requires Row(t, w1) == Row(t, w2)
    requires IsPrefix(w1, u1) && IsPrefix(w2, u2)
    requires GetSuffix(w1, u1) == GetSuffix(w2, u2)
    ensures Row(t, u1) == Row(t, u2)
  {
    var i :| 0 <= i < |t.SUR| && t.SUR[i] == w1;
    var j :| 0 <= j < |t.SUR| && t.SUR[j] == w2;
    var a :| 0 <= a < |t.SUR| && t.SUR[a] == u1;
    var b :| 0 <= b < |t.SUR| && t.SUR[b] == u2;
    if w1 == w2 {
      SameSuffixSameWord(w1, u1, u2);
    } else if i < j {
      assert !Mismatch(t, i, j, a, b);
    } else {
      assert !Mismatch(t, j, i, b, a);
    }
  }

  /** Conversely, a mismatch gives four SUR words that break the word-level
      statement. */
  lemma MismatchBreaksWords(t: Table, i: nat, j: nat, a: nat, b: nat)
    requires Mismatch(t, i, j, a, b)
    ensures var w1, w2, u1, u2 := t.SUR[i], t.SUR[j], t.SUR[a], t.SUR[b];
      && w1 in t.SUR && w2 in t.SUR && u1 in t.SUR && u2 in t.SUR
      && w1 != w2 && Row(t, w1) == Row(t, w2)
      && IsPrefix(w1, u1) && IsPrefix(w2, u2)
      && GetSuffix(w1, u1) == GetSuffix(w2, u2)
      && Row(t, u1) != Row(t, u2)
  {
    var w1, w2, u1, u2 := t.SUR[i], t.SUR[j], t.SUR[a], t.SUR[b];
    if w1 == w2 {
      SameSuffixSameWord(w1, u1, u2);
    }
  }

  /** The first position at which two equally long, different rows differ. */
  function FirstDiff(r1: seq<bool>, r2: seq<bool>, k: nat): (d: nat)
    requires |r1| == |r2| && k < |r1|
    requires exists m :: k <= m < |r1| && r1[m] != r2[m]
    ensures k <= d < |r1| && r1[d] != r2[d]
    ensures forall m :: k <= m < d ==> r1[m] == r2[m]
    decreases |r1| - k
  {
    if r1[k] != r2[k] then k else FirstDiff(r1, r2, k + 1)
  }

  /** Rows of u and v are defined, differ at evidence index k, and agree
      before it. */
  predicate FirstDifference(t: Table, u: Word, v: Word, k: nat)
  {
    && Row(t, u).Some? && Row(t, v).Some?
    && k < |t.E| && k < |Row(t, u).value| && k < |Row(t, v).value|
    && Row(t, u).value[k] != Row(t, v).value[k]
    && forall m :: 0 <= m < k ==> Row(t, u).value[m] == Row(t, v).value[m]
  }

  /** `e` is the evidence make_consistent derives: the common suffix of a
      mismatch followed by the first evidence word that separates the two
      continuations. */
  ghost predicate Separates(t: Table, e: Word)
  {
    exists i: nat, j: nat, a: nat, b: nat, k: nat ::
      && Mismatch(t, i, j, a, b)
      && FirstDifference(t, t.SUR[a], t.SUR[b], k)
      && e == GetSuffix(t.SUR[i], t.SUR[a]) + t.E[k]
  }

  /** The words s·e for s in S, in the order of S. */
  function Appended(S: seq<Word>, e: Word): (ws: seq<Word>)
    ensures |ws| == |S| && forall k :: 0 <= k < |S| ==> ws[k] == S[k] + e
  {
    seq(|S|, k requires 0 <= k < |S| => S[k] + e)
  }

  /** Every word of `ws` is some access string followed by `e`. */
  ghost predicate ExtendsS(S: seq<Word>, e: Word, ws: seq<Word>)
  {
    forall w :: w in ws ==> exists s :: s in S && w == s + e
  }

  lemma AppendedExtendsS(S: seq<Word>, e: Word, ws: seq<Word>)
    requires forall w :: w in ws ==> w in Appended(S, e)
    ensures ExtendsS(S, e, ws)
  {
    forall w | w in ws
      ensures exists s :: s in S && w == s + e
    {
      var k :| 0 <= k < |S| && Appended(S, e)[k] == w;
      assert S[k] in S;
    }
  }

  /** The repair make_consistent performs for a mismatch `q`. */
  ghost function Repair(t: Table, q: Quad): (t': Table)
    requires Filled(t) && Mismatch(t, q.i, q.j, q.a, q.b)
    ensures |t'.E| == |t.E| + 1 && t'.E[..|t.E|] == t.E
    ensures Separates(t, t'.E[|t.E|])
    ensures forall s :: s in t.S ==> s + t'.E[|t.E|] in t'.SUR
    ensures FrontierGrew(t.(E := t'.E), t')
    ensures ExtendsS(t.S, t'.E[|t.E|], t'.SUR[|t.SUR|..])
  {
    var u1, u2 := t.SUR[q.a], t.SUR[q.b];
    assert u1 in t.SUR && u2 in t.SUR;
    RowMeaning(t, u1);
    RowMeaning(t, u2);
    var r1, r2 := Row(t, u1).value, Row(t, u2).value;
    assert Row(t, u1) != Row(t, u2);
    assert r1 != r2 && |r1| == |r2|;
    assert exists m :: 0 <= m < |r1| && r1[m] != r2[m];
    var k := FirstDiff(r1, r2, 0);
    assert FirstDifference(t, u1, u2, k);
    var e := GetSuffix(t.SUR[q.i], u1) + t.E[k];
    var t1 := t.(E := t.E + [e]);
    var t' := ExtendFrontier(t1, Appended(t.S, e));
    assert t'.E[|t.E|] == e && t'.E[..|t.E|] == t.E;
    assert forall s :: s in t.S ==> s + e in Appended(t.S, e);
    AppendedExtendsS(t.S, e, t'.SUR[|t1.SUR|..]);
    t'
  }

  /** `make_consistent()`.  On a filled table it reports no change exactly
      when the table is consistent, and then leaves it as it was.  Otherwise
      E grows by exactly one word, the separating evidence of a mismatch, and
      SUR is extended with s·e for every access string s; nothing else
      changes. */
  ghost function MakeConsistent(t: Table): (r: (Table, bool))
    requires Filled(t)
    ensures !r.1 <==> Consistent(t)
    ensures !r.1 ==> r.0 == t
    ensures r.1 ==>
      var t' := r.0;
      && |t'.E| == |t.E| + 1 && t'.E[..|t.E|] == t.E
      && Separates(t, t'.E[|t.E|])
      && (forall s :: s in t.S ==> s + t'.E[|t.E|] in t'.SUR)
      && FrontierGrew(t.(E := t'.E), t')
      && ExtendsS(t.S, t'.E[|t.E|], t'.SUR[|t.SUR|..])
  {
    match FindI(t, 0)
    case None => (t, false)
    case Some(q) => (Repair(t, q), true)
  }

  /** make_consistent keeps the bookkeeping invariants. */
  lemma MakeConsistentKeepsWellFormed(t: Table)
    requires Filled(t) && WellFormed(t)
    ensures WellFormed(MakeConsistent(t).0)
  {
    var t' := MakeConsistent(t).0;
    if MakeConsistent(t).1 {
      var t1 := t.(E := t'.E);
      assert t1.E[0] == t.E[0];
      assert WellFormed(t1);
      FrontierGrewKeepsWellFormed(t1, t');
    }
  }
}

=== FILE: counterexample.dfy ===
/** `process`: a counterexample is a sequence of predicates.  Walking its
    witness word through the conjectured states, the first partition that a
    counterexample predicate cuts across is refined, and the suffixes of the
    witness word become new evidence. */
module Counterexample {
  import opened Base
  import opened Words
  import opened Predicates
  import opened ObservationTable

  lemma CoverAppend(a: seq<Triple>, b: seq<Triple>)
    ensures Cover(a + b) == Cover(a) + Cover(b)
  {
    var ab := a + b;
    forall x
      ensures x in Cover(ab) <==> x in Cover(a) + Cover(b)
    {
      if x in Cover(ab) {
        var k :| 0 <= k < |ab| && x in ab[k].guard;
        if k >= |a| {
          assert ab[k] == b[k - |a|];
        }
      }
      if x in Cover(b) {
        var k :| 0 <= k < |b| && x in b[k].guard;
        assert ab[|a| + k] == b[k];
      }
      if x in Cover(a) {
        var k :| 0 <= k < |a| && x in a[k].guard;
        assert ab[k] == a[k];
      }
    }
  }

  /** Disjointness of a concatenation: each part is disjoint and the two
      parts cover disjoint sets of symbols. */
  lemma {:induction false} DisjointAppend(a: seq<Triple>, b: seq<Triple>)
    ensures Disjoint(a + b) <==> Disjoint(a) && Disjoint(b) && Cover(a) * Cover(b) == iset{}
  {
    var ab := a + b;
    assert forall k :: 0 <= k < |a| ==> ab[k] == a[k];
    assert forall k :: 0 <= k < |b| ==> ab[|a| + k] == b[k];
    if Disjoint(ab) {
      assert Disjoint(a);
      forall i, j | 0 <= i < j < |b|
        ensures b[i].guard * b[j].guard == iset{}
      {
        assert ab[|a| + i] == b[i] && ab[|a| + j] == b[j];
      }
      forall i, j, x | 0 <= i < |a| && 0 <= j < |b|
        ensures !(x in a[i].guard && x in b[j].guard)
      {
        assert ab[i] == a[i] && ab[|a| + j] == b[j];
        assert ab[i].guard * ab[|a| + j].guard == iset{};
        assert x !in ab[i].guard * ab[|a| + j].guard;
      }
    }
    if Disjoint(a) && Disjoint(b) && Cover(a) * Cover(b) == iset{} {
      forall i, j | 0 <= i < j < |ab|
        ensures ab[i].guard * ab[j].guard == iset{}
      {
        if j < |a| {
          assert ab[i] == a[i] && ab[j] == a[j];
        } else if i >= |a| {
          assert ab[i] == b[i - |a|] && ab[j] == b[j - |a|];
        } else {
          assert ab[i] == a[i] && ab[j] == b[j - |a|];
          assert forall x :: x in a[i].guard ==> x in Cover(a);
          assert forall x :: x in b[j - |a|].guard ==> x in Cover(b);
        }
      }
    }
  }

  /** The outcome of scanning one partition against a counterexample
      predicate: the entries left in place, the entries appended, whether
      some guard met the predicate, and whether any was split. */
  datatype Refined = Refined(kept: seq<Triple>, added: seq<Triple>, found: bool, changed: bool)

  /** `pair` is the two halves a guard of `ps` is split into by a predicate
      `c`, drawn from `cur`, that overlaps it without being equal to it. */
  ghost predicate SplitPair(ps: seq<Triple>, cur: Pred, pair: seq<Triple>)
  {
    exists j, c :: 0 <= j < |ps| && c <= cur && !AreEquivalent(ps[j].guard, c)
      && IsSatisfiable(And(c, ps[j].guard)) && pair == Halves(ps[j].guard, c)
  }

  /** `added` is a run of such pairs. */
  ghost predicate SplitPairs(ps: seq<Triple>, cur: Pred, added: seq<Triple>)
    decreases |added|
  {
    |added| == 0 || (|added| >= 2 && SplitPair(ps, cur, added[..2]) && SplitPairs(ps, cur, added[2..]))
  }

  /** The scan splits first at position `j`: every earlier guard is kept
      and neither equals nor meets `cur`, and the first two appended triples
      are the halves of the j-th guard by `cur` itself. */
  ghost predicate SplitsFirstAt(ps: seq<Triple>, cur: Pred, r: Refined, j: int)
  {
    && 0 <= j < |ps| && j <= |r.kept| && 2 <= |r.added|
    && r.kept[..j] == ps[..j]
    && (forall i :: 0 <= i < j ==> !AreEquivalent(ps[i].guard, cur) && !IsSatisfiable(And(cur, ps[i].guard)))
    && !AreEquivalent(ps[j].guard, cur) && IsSatisfiable(And(cur, ps[j].guard))
    && r.added[..2] == Halves(ps[j].guard, cur)
  }

  /** The inner loop of process over the partition `ps`, with the current
      counterexample predicate `cur`: a guard equal to `cur` ends the scan
      with nothing split; a guard that overlaps `cur` is replaced by its parts
      inside and outside `cur`, and `cur` loses that guard.  Every guard of
      `ps` is either kept or replaced by one pair of halves. */
  ghost function Refine(ps: seq<Triple>, cur: Pred): (r: Refined)
    ensures r.changed <==> r.added != []
    ensures !r.changed ==> r.kept == ps
    ensures r.changed ==> r.found
    ensures forall k :: 0 <= k < |r.added| ==> r.added[k].target.None? && r.added[k].wit.None?
    ensures forall x :: x in r.kept ==> x in ps
    ensures 2 * |r.kept| + |r.added| == 2 * |ps|
    ensures SplitPairs(ps, cur, r.added)
    ensures r.changed ==> exists j :: SplitsFirstAt(ps, cur, r, j)
    decreases |ps|
  {
    if |ps| == 0 then Refined([], [], false, false)
    else if AreEquivalent(ps[0].guard, cur) then Refined(ps, [], true, false)
    else if IsSatisfiable(And(cur, ps[0].guard)) then
      var g := ps[0].guard;
      var rest := Refine(ps[1..], And(cur, Not(g)));
      var r := Refined(rest.kept, Halves(g, cur) + rest.added, true, true);
      SplitStartsPairs(ps, cur, rest, r);
      r
    else
      var rest := Refine(ps[1..], cur);
      assert ps == [ps[0]] + ps[1..];
      var r := Refined([ps[0]] + rest.kept, rest.added, rest.found, rest.changed);
      SkipKeepsPairs(ps, cur, rest, r);
      r
  }

  lemma MkSplitPair(ps: seq<Triple>, cur: Pred, j: int, c: Pred)
    requires 0 <= j < |ps| && c <= cur && !AreEquivalent(ps[j].guard, c) && IsSatisfiable(And(c, ps[j].guard))
    ensures SplitPair(ps, cur, Halves(ps[j].guard, c))
  {
  }

  /** Splitting the first guard by `cur` starts the run of pairs. */
  lemma SplitStartsPairs(ps: seq<Triple>, cur: Pred, rest: Refined, r: Refined)
    requires |ps| > 0 && !AreEquivalent(ps[0].guard, cur) && IsSatisfiable(And(cur, ps[0].guard))
    requires SplitPairs(ps[1..], And(cur, Not(ps[0].guard)), rest.added)
    requires r.kept == rest.kept && r.added == Halves(ps[0].guard, cur) + rest.added
    requires forall k :: 0 <= k < |rest.added| ==> rest.added[k].target.None? && rest.added[k].wit.None?
    ensures SplitPairs(ps, cur, r.added) && SplitsFirstAt(ps, cur, r, 0)
    ensures forall k :: 0 <= k < |r.added| ==> r.added[k].target.None? && r.added[k].wit.None?
  {
    var pair := Halves(ps[0].guard, cur);
    HalvesUnresolved(pair, rest.added);
    SplitPairsWiden(ps, cur, And(cur, Not(ps[0].guard)), rest.added);
    MkSplitPair(ps, cur, 0, cur);
    PairThenPairs(ps, cur, pair, rest.added);
  }

  lemma HalvesUnresolved(pair: seq<Triple>, added: seq<Triple>)
    requires |pair| == 2 && pair[0].target.None? && pair[0].wit.None? && pair[1].target.None? && pair[1].wit.None?
    requires forall k :: 0 <= k < |added| ==> added[k].target.None? && added[k].wit.None?
    ensures forall k :: 0 <= k < |pair + added| ==> (pair + added)[k].target.None? && (pair + added)[k].wit.None?
  {
    assert forall k :: 2 <= k < |pair + added| ==> (pair + added)[k] == added[k - 2];
  }

  lemma PairThenPairs(ps: seq<Triple>, cur: Pred, pair: seq<Triple>, added: seq<Triple>)
    requires |pair| == 2 && SplitPair(ps, cur, pair) && SplitPairs(ps, cur, added)
    ensures SplitPairs(ps, cur, pair + added)
  {
    assert (pair + added)[..2] == pair && (pair + added)[2..] == added;
  }

  /** Keeping the first guard keeps the run of pairs and moves the first
      split one place on. */
  lemma SkipKeepsPairs(ps: seq<Triple>, cur: Pred, rest: Refined, r: Refined)
    requires |ps| > 0 && !AreEquivalent(ps[0].guard, cur) && !IsSatisfiable(And(cur, ps[0].guard))
    requires SplitPairs(ps[1..], cur, rest.added)
    requires rest.changed ==> exists j :: SplitsFirstAt(ps[1..], cur, rest, j)
    requires r.kept == [ps[0]] + rest.kept && r.added == rest.added && r.changed == rest.changed
    ensures SplitPairs(ps, cur, r.added)
    ensures r.changed ==> exists j :: SplitsFirstAt(ps, cur, r, j)
  {
    SplitPairsWiden(ps, cur, cur, rest.added);
    if rest.changed {
      var j :| SplitsFirstAt(ps[1..], cur, rest, j);
      SkipKeepsFirstSplit(ps, cur, rest, r, j);
    }
  }

  /** Pairs split from the guards after the first, by a smaller predicate,
      are pairs split from the guards of the whole partition. */
  lemma {:induction false} SplitPairsWiden(ps: seq<Triple>, cur: Pred, cur': Pred, added: seq<Triple>)
    requires |ps| > 0 && cur' <= cur && SplitPairs(ps[1..], cur', added)
    ensures SplitPairs(ps, cur, added)
    decreases |added|
  {
    if |added| > 0 {
      var j, c :| 0 <= j < |ps[1..]| && c <= cur' && !AreEquivalent(ps[1..][j].guard, c)
        && IsSatisfiable(And(c, ps[1..][j].guard)) && added[..2] == Halves(ps[1..][j].guard, c);
      assert ps[1..][j] == ps[j + 1];
      MkSplitPair(ps, cur, j + 1, c);
      SplitPairsWiden(ps, cur, cur', added[2..]);
    }
  }

  lemma SkipKeepsFirstSplit(ps: seq<Triple>, cur: Pred, rest: Refined, r: Refined, j: int)
    requires |ps| > 0 && !AreEquivalent(ps[0].guard, cur) && !IsSatisfiable(And(cur, ps[0].guard))
    requires SplitsFirstAt(ps[1..], cur, rest, j)
    requires r.kept == [ps[0]] + rest.kept && r.added == rest.added
    ensures SplitsFirstAt(ps, cur, r, j + 1)
  {
    assert r.kept[..j + 1] == [ps[0]] + rest.kept[..j];
    assert ps[..j + 1] == [ps[0]] + ps[1..][..j];
    forall i | 0 <= i < j + 1
      ensures !AreEquivalent(ps[i].guard, cur) && !IsSatisfiable(And(cur, ps[i].guard))
    {
      if i > 0 {
        assert ps[i] == ps[1..][i - 1];
      }
    }
    assert ps[j + 1] == ps[1..][j];
  }

  /** `g` lies inside some guard of `ps`. */
  ghost predicate InsideSome(g: Pred, ps: seq<Triple>)
  {
    exists j :: 0 <= j < |ps| && g <= ps[j].guard
  }

  lemma {:induction false} SplitPairsInside(ps: seq<Triple>, cur: Pred, added: seq<Triple>)
    requires SplitPairs(ps, cur, added)
    ensures forall k :: 0 <= k < |added| ==> InsideSome(added[k].guard, ps)
    decreases |added|
  {
    if |added| > 0 {
      var j, c :| 0 <= j < |ps| && c <= cur && added[..2] == Halves(ps[j].guard, c);
      assert added[0] == added[..2][0] && added[1] == added[..2][1];
      SplitPairsInside(ps, cur, added[2..]);
      forall k | 2 <= k < |added|
        ensures InsideSome(added[k].guard, ps)
      {
        assert added[k] == added[2..][k - 2];
      }
    }
  }

  /** Every guard of `qs` lies inside a guard of `ps`. */
  ghost predicate Finer(qs: seq<Triple>, ps: seq<Triple>)
  {
    forall k :: 0 <= k < |qs| ==> InsideSome(qs[k].guard, ps)
  }

  /** Refinement only makes the partition finer: every guard of the result
      lies inside a guard of the original partition. */
  lemma RefineIsFiner(ps: seq<Triple>, cur: Pred)
    ensures var r := Refine(ps, cur);
      Finer(r.kept + r.added, ps)
  {
    var r := Refine(ps, cur);
    SplitPairsInside(ps, cur, r.added);
    KeptAndInsideFiner(ps, r.kept, r.added);
  }

  lemma KeptAndInsideFiner(ps: seq<Triple>, kept: seq<Triple>, added: seq<Triple>)
    requires forall x :: x in kept ==> x in ps
    requires forall k :: 0 <= k < |added| ==> InsideSome(added[k].guard, ps)
    ensures Finer(kept + added, ps)
  {
    var qs := kept + added;
    forall k | 0 <= k < |qs|
      ensures InsideSome(qs[k].guard, ps)
    {
      if k < |kept| {
        assert qs[k] in kept;
        var j :| 0 <= j < |ps| && ps[j] == qs[k];
      } else {
        assert qs[k] == added[k - |kept|];
      }
    }
  }

  /** Refinement covers exactly the symbols the partition covered. */
  lemma {:induction false} RefineKeepsCover(ps: seq<Triple>, cur: Pred)
    ensures var r := Refine(ps, cur);
      Cover(r.kept) + Cover(r.added) == Cover(ps)
    decreases |ps|
  {
    if |ps| > 0 && !AreEquivalent(ps[0].guard, cur) {
      var g := ps[0].guard;
      if IsSatisfiable(And(cur, g)) {
        var rest := Refine(ps[1..], And(cur, Not(g)));
        RefineKeepsCover(ps[1..], And(cur, Not(g)));
        CoverAppend(Halves(g, cur), rest.added);
      } else {
        var rest := Refine(ps[1..], cur);
        RefineKeepsCover(ps[1..], cur);
        CoverAppend([ps[0]], rest.kept);
      }
    }
  }

  /** A scan that met no guard means the predicate misses every covered
      symbol. */
  lemma {:induction false} NotFoundMeansNoOverlap(ps: seq<Triple>, cur: Pred)
    requires !Refine(ps, cur).found
    ensures cur * Cover(ps) == iset{}
    decreases |ps|
  {
    if |ps| > 0 {
      var g := ps[0].guard;
      assert !AreEquivalent(g, cur) && !IsSatisfiable(And(cur, g));
      assert !Refine(ps[1..], cur).found;
      NotFoundMeansNoOverlap(ps[1..], cur);
      forall x | x in cur
        ensures x !in Cover(ps)
      {
        assert x !in And(cur, g);
        assert x !in cur * Cover(ps[1..]);
        assert ps == [ps[0]] + ps[1..];
        CoverAppend([ps[0]], ps[1..]);
      }
    }
  }

  /** The pieces of a guard `g` split by `cur` and its complement. */
  ghost function Halves(g: Pred, cur: Pred): (pair: seq<Triple>)
    ensures Disjoint(pair) && Cover(pair) == g
  {
    [Triple(And(g, cur), None, None), Triple(And(g, Not(cur)), None, None)]
  }

  lemma SplitKeepsDisjoint(g: Pred, cur: Pred, kept: seq<Triple>, added: seq<Triple>)
    requires Disjoint(kept + added) && g * (Cover(kept) + Cover(added)) == iset{}
    ensures Disjoint(kept + (Halves(g, cur) + added))
  {
    var pair := Halves(g, cur);
    DisjointAppend(kept, added);
    DisjointAppend(pair, added);
    CoverAppend(pair, added);
    DisjointAppend(kept, pair + added);
  }

  lemma SkipKeepsDisjoint(x: Triple, kept: seq<Triple>, added: seq<Triple>)
    requires Disjoint(kept + added) && x.guard * (Cover(kept) + Cover(added)) == iset{}
    ensures Disjoint(([x] + kept) + added)
  {
    DisjointAppend(kept, added);
    DisjointAppend([x], kept);
    CoverAppend([x], kept);
    DisjointAppend([x] + kept, added);
  }

  /** Refinement keeps the guards pairwise disjoint. */
  lemma {:induction false} RefineKeepsDisjoint(ps: seq<Triple>, cur: Pred)
    requires Disjoint(ps)
    ensures var r := Refine(ps, cur);
      Disjoint(r.kept + r.added)
    decreases |ps|
  {
    if |ps| == 0 {
    } else if AreEquivalent(ps[0].guard, cur) {
      assert Refine(ps, cur).kept + Refine(ps, cur).added == ps;
    } else {
      var g := ps[0].guard;
      assert ps == [ps[0]] + ps[1..];
      DisjointAppend([ps[0]], ps[1..]);
      var c' := if IsSatisfiable(And(cur, g)) then And(cur, Not(g)) else cur;
      var rest := Refine(ps[1..], c');
      RefineKeepsDisjoint(ps[1..], c');
      RefineKeepsCover(ps[1..], c');
      if IsSatisfiable(And(cur, g)) {
        SplitKeepsDisjoint(g, cur, rest.kept, rest.added);
      } else {
        SkipKeepsDisjoint(ps[0], rest.kept, rest.added);
      }
    }
  }

  /** Refinement of a total partition is a total partition. */
  lemma RefineKeepsTotal(ps: seq<Triple>, cur: Pred)
    requires Total(ps)
    ensures var r := Refine(ps, cur);
      Total(r.kept + r.added)
  {
    var r := Refine(ps, cur);
    RefineKeepsDisjoint(ps, cur);
    RefineKeepsCover(ps, cur);
    CoverAppend(r.kept, r.added);
  }

  /** Every kept triple is one of the partition's own, unchanged, and the
      appended triples have neither target nor witness, so every triple with
      a witness still targets an access string.  A resolved triple whose
      guard meets the predicate is not kept: it is split like any other. */
  lemma RefineKeepsTargeted(S: seq<Word>, ps: seq<Triple>, cur: Pred)
    requires Targeted(S, ps)
    ensures var r := Refine(ps, cur);
      Targeted(S, r.kept + r.added)
  {
    var r := Refine(ps, cur);
    KeptAndUnresolvedTargeted(S, ps, r.kept, r.added);
  }

  lemma KeptAndUnresolvedTargeted(S: seq<Word>, ps: seq<Triple>, kept: seq<Triple>, added: seq<Triple>)
    requires Targeted(S, ps) && forall x :: x in kept ==> x in ps
    requires forall k :: 0 <= k < |added| ==> added[k].target.None? && added[k].wit.None?
    ensures Targeted(S, kept + added)
  {
    var qs := kept + added;
    assert forall j :: |kept| <= j < |qs| ==> qs[j] == added[j - |kept|];
    forall k | 0 <= k < |qs| && qs[k].wit.Some?
      ensures qs[k].target.Some? && qs[k].target.value in S
    {
      assert k < |kept|;
      assert qs[k] in kept;
      var j :| 0 <= j < |ps| && ps[j] == qs[k];
    }
  }

  /** The word of witnesses of a counterexample, one symbol per predicate,
      or `None` when some predicate has no witness. */
  ghost function Witnesses(cx: seq<Pred>): (r: Option<Word>)
    ensures r.Some? <==> forall i :: 0 <= i < |cx| ==> IsSatisfiable(cx[i])
    ensures r.Some? ==> |r.value| == |cx| && forall i :: 0 <= i < |cx| ==> r.value[i] in cx[i]
    decreases |cx|
  {
    if |cx| == 0 then Some([])
    else
      match (GenerateWitness(cx[0]), Witnesses(cx[1..]))
      case (Some(a), Some(rest)) => Some([a] + rest)
      case _ =>
        assert forall i :: 1 <= i < |cx| ==> cx[i] == cx[1..][i - 1];
        None
  }

  /** The new evidence words, shortest first: the suffixes of `ws`. */
  function Suffixes(ws: Word): (es: seq<Word>)
    ensures |es| == |ws|
    ensures forall k :: 0 <= k < |es| ==> |es[k]| == k + 1 && ws[..|ws| - 1 - k] + es[k] == ws
  {
    seq(|ws|, k requires 0 <= k < |ws| => ws[|ws| - 1 - k..])
  }

  /** The scan at position i of the counterexample reaches access string
      `s`, the access string of the witness prefix of length i, and `s` has
      a partition. */
  ghost predicate ScanAt(t: Table, cx: seq<Pred>, ws: Word, i: nat, s: Word)
  {
    && i < |cx| && i <= |ws|
    && GetAccessString(t, ws[..i]) == Some(s)
    && s in t.partitions
  }

  /** Position i met a guard and split nothing. */
  ghost predicate Quiet(t: Table, cx: seq<Pred>, ws: Word, i: nat)
  {
    exists s :: ScanAt(t, cx, ws, i, s)
      && Refine(t.partitions[s], cx[i]).found && !Refine(t.partitions[s], cx[i]).changed
  }

  /** `t'` is `t` with the partition of `s` replaced by its refinement by
      the i-th predicate, which split some guard. */
  ghost predicate RefinedAt(t: Table, t': Table, cx: seq<Pred>, ws: Word, i: nat, s: Word)
  {
    && ScanAt(t, cx, ws, i, s)
    && var r := Refine(t.partitions[s], cx[i]);
    && r.changed
    && t'.partitions == t.partitions[s := r.kept + r.added]
    && t'.S == t.S && t'.R == t.R && t'.E == t.E && t'.SUR == t.SUR && t'.f == t.f && t'.arb == t.arb
  }

  /** The i-th predicate misses every symbol the partition of `s` covers. */
  ghost predicate Missed(t: Table, cx: seq<Pred>, ws: Word, i: nat, s: Word)
  {
    ScanAt(t, cx, ws, i, s) && cx[i] * Cover(t.partitions[s]) == iset{}
  }

  /** The outer loop of process from position i. */
  ghost function Walk(t: Table, cx: seq<Pred>, ws: Word, i: nat): (r: Result<Table>)
    requires |ws| == |cx| && i <= |cx|
    ensures r.Ok? ==>
      (exists k: nat, s :: i <= k < |cx| && RefinedAt(t, r.value, cx, ws, k, s)
        && forall m :: i <= m < k ==> Quiet(t, cx, ws, m))
    ensures r.Err? && r.fault == NoRefinement ==> forall m :: i <= m < |cx| ==> Quiet(t, cx, ws, m)
    ensures r.Err? && r.fault == NoOverlap ==>
      (exists k: nat, s :: i <= k < |cx| && Missed(t, cx, ws, k, s))
    ensures r.Err? && r.fault == NoAccessString ==>
      (exists k :: i <= k < |cx| && GetAccessString(t, ws[..k]).None?)
    ensures r.Err? && r.fault == MissingPartition ==>
      (exists k :: i <= k < |cx| && GetAccessString(t, ws[..k]).Some? && GetAccessString(t, ws[..k]).value !in t.partitions)
    ensures r.Err? ==> r.fault in {NoRefinement, NoOverlap, NoAccessString, MissingPartition}
    decreases |cx| - i
  {
    if i == |cx| then Err(NoRefinement)
    else
      match GetAccessString(t, ws[..i])
      case None => Err(NoAccessString)
      case Some(s) =>
        if s !in t.partitions then Err(MissingPartition)
        else
          var r := Refine(t.partitions[s], cx[i]);
          assert ScanAt(t, cx, ws, i, s);
          if !r.found then
            NotFoundMeansNoOverlap(t.partitions[s], cx[i]);
            assert Missed(t, cx, ws, i, s);
            Err(NoOverlap)
          else if r.changed then
            var t' := t.(partitions := t.partitions[s := r.kept + r.added]);
            assert RefinedAt(t, t', cx, ws, i, s);
            Ok(t')
          else
            assert Quiet(t, cx, ws, i);
            Walk(t, cx, ws, i + 1)
  }

  /** `process(cx)`.  On success exactly one partition, that of the access
      string reached by the first witness prefix whose predicate cuts across
      a guard, is refined; every earlier prefix met a guard and split
      nothing; and E grows by the suffixes of the witness word, shortest
      first.  S, R, SUR and f are untouched. */
  ghost function Process(t: Table, cx: seq<Pred>): (r: Result<Table>)
    ensures r.Ok? || r.fault != NoWitness ==> Witnesses(cx).Some?
    ensures r.Ok? ==>
      var ws, t' := Witnesses(cx).value, r.value;
      && t'.S == t.S && t'.R == t.R && t'.SUR == t.SUR && t'.f == t.f && t'.arb == t.arb
      && t'.E == t.E + Suffixes(ws)
      && exists k: nat, s :: RefinedAt(t, t'.(E := t.E), cx, ws, k, s)
           && forall m :: 0 <= m < k ==> Quiet(t, cx, ws, m)
    ensures r.Err? && r.fault == NoWitness <==> Witnesses(cx).None?
    ensures r.Err? && r.fault == NoRefinement ==>
      forall m :: 0 <= m < |cx| ==> Quiet(t, cx, Witnesses(cx).value, m)
    ensures r.Err? && r.fault == NoOverlap ==>
      exists k: nat, s :: Missed(t, cx, Witnesses(cx).value, k, s)
  {
    match Witnesses(cx)
    case None => Err(NoWitness)
    case Some(ws) =>
      var t1 :- Walk(t, cx, ws, 0);
      Ok(t1.(E := t1.E + Suffixes(ws)))
  }

  /** On a well-formed table the counterexample always meets a guard: the
      partitions cover the whole alphabet. */
  lemma WellFormedMeetsGuard(t: Table, cx: seq<Pred>)
    requires WellFormed(t)
    ensures Process(t, cx) != Err(NoOverlap)
  {
    if Witnesses(cx).Some? {
      var ws := Witnesses(cx).value;
      forall k: nat, s
        ensures !Missed(t, cx, ws, k, s)
      {
        if ScanAt(t, cx, ws, k, s) {
          assert ws[k] in cx[k] && ws[k] in Cover(t.partitions[s]);
        }
      }
    }
  }

  /** process keeps the bookkeeping invariants. */
  lemma ProcessKeepsWellFormed(t: Table, cx: seq<Pred>)
    requires WellFormed(t)
    ensures Process(t, cx).Ok? ==> WellFormed(Process(t, cx).value)
  {
    var r := Process(t, cx);
    if r.Ok? {
      var ws, t' := Witnesses(cx).value, r.value;
      var t1 := t'.(E := t.E);
      var k: nat, s :| RefinedAt(t, t1, cx, ws, k, s);
      RefinedKeepsWellFormed(t, t1, cx, ws, k, s);
      assert t' == t1.(E := t1.E + Suffixes(ws));
      assert t'.E[0] == t1.E[0];
    }
  }

  /** A successful process refines exactly one partition, of an access
      string: the new partition has more triples, covers the same symbols,
      and each of its guards lies inside one of the old guards.  Every other
      partition is unchanged. */
  lemma ProcessRefinesOnePartition(t: Table, cx: seq<Pred>)
    ensures Process(t, cx).Ok? ==> var t' := Process(t, cx).value;
      exists s :: s in t.partitions && RefinedOnly(t.partitions, t'.partitions, s)
  {
    var r := Process(t, cx);
    if r.Ok? {
      var ws, t' := Witnesses(cx).value, r.value;
      var k: nat, s :| RefinedAt(t, t'.(E := t.E), cx, ws, k, s);
      RefineRefinesOnly(t.partitions, s, cx[k]);
      assert t'.partitions == t.partitions[s := Refine(t.partitions[s], cx[k]).kept + Refine(t.partitions[s], cx[k]).added];
    }
  }

  /** `parts'` is `parts` with the partition of `s` replaced by a longer,
      finer one with the same cover. */
  ghost predicate RefinedOnly(parts: map<Word, seq<Triple>>, parts': map<Word, seq<Triple>>, s: Word)
    requires s in parts
  {
    && parts'.Keys == parts.Keys
    && (forall s2 :: s2 in parts && s2 != s ==> parts'[s2] == parts[s2])
    && |parts'[s]| > |parts[s]|
    && Cover(parts'[s]) == Cover(parts[s])
    && Finer(parts'[s], parts[s])
  }

  lemma RefineRefinesOnly(parts: map<Word, seq<Triple>>, s: Word, cur: Pred)
    requires s in parts && Refine(parts[s], cur).changed
    ensures var r := Refine(parts[s], cur);
      RefinedOnly(parts, parts[s := r.kept + r.added], s)
  {
    var r := Refine(parts[s], cur);
    RefineKeepsCover(parts[s], cur);
    CoverAppend(r.kept, r.added);
    RefineIsFiner(parts[s], cur);
    ReplacedOnly(parts, s, r.kept + r.added);
  }

  lemma ReplacedOnly(parts: map<Word, seq<Triple>>, s: Word, qs: seq<Triple>)
    requires s in parts && |qs| > |parts[s]| && Cover(qs) == Cover(parts[s]) && Finer(qs, parts[s])
    ensures RefinedOnly(parts, parts[s := qs], s)
  {
  }

  /** Refining one partition keeps the bookkeeping invariants. */
  lemma RefinedKeepsWellFormed(t: Table, t': Table, cx: seq<Pred>, ws: Word, i: nat, s: Word)
    requires WellFormed(t) && RefinedAt(t, t', cx, ws, i, s)
    ensures WellFormed(t')
  {
    RefineKeepsTotal(t.partitions[s], cx[i]);
    RefineKeepsTargeted(t.S, t.partitions[s], cx[i]);
  }
}

=== FILE: distribute.dfy ===
/** `distribute`: after make_consistent appended an evidence word e, pairs of
    SUR words that e newly separates must see the same one-symbol
    continuations, so the missing continuations are added to R. */
module Distribution {
  import opened Base
  import opened Words
  import opened ObservationTable

  /** The evidence word appended last. */
  function LastEvidence(t: Table): Word
    requires |t.E| > 0
  {
    t.E[|t.E| - 1]
  }

  /** `u` and `v` have equal rows once every copy of `e` is ignored, yet
      their continuations by `e` are classified differently. */
  predicate SplitBy(t: Table, e: Word, u: Word, v: Word)
  {
    && RowOf(t.E, t.f, u, Some(e)) == RowOf(t.E, t.f, v, Some(e))
    && u + e in t.f && v + e in t.f && t.f[u + e] != t.f[v + e]
  }

  /** `w` is `u` followed by exactly one symbol. */
  predicate Continues(u: Word, w: Word)
  {
    |w| == |u| + 1 && IsPrefix(u, w)
  }

  /** Some SUR word with the row of `v` already has its `b`-continuation in
      SUR or among the words collected so far. */
  predicate Covered(t: Table, v: Word, b: Word, acc: seq<Word>)
  {
    exists m :: 0 <= m < |t.SUR| && Row(t, t.SUR[m]) == Row(t, v)
      && (t.SUR[m] + b in t.SUR || t.SUR[m] + b in acc)
  }

  lemma CoveredGrows(t: Table, v: Word, b: Word, acc: seq<Word>, acc': seq<Word>)
    requires Covered(t, v, b, acc) && acc <= acc'
    ensures Covered(t, v, b, acc')
  {
    var m :| 0 <= m < |t.SUR| && Row(t, t.SUR[m]) == Row(t, v)
      && (t.SUR[m] + b in t.SUR || t.SUR[m] + b in acc);
    if t.SUR[m] + b !in t.SUR {
      assert acc' == acc + acc'[|acc|..];
    }
  }

  /** The body of one `addFlag` check: `v·b` is collected exactly when no
      word with the row of `v` already has its `b`-continuation. */
  function Offer(t: Table, v: Word, b: Word, acc: seq<Word>): (acc': seq<Word>)
    requires v in t.SUR
    ensures acc != acc' <==> !Covered(t, v, b, acc)
    ensures acc' != acc ==> acc' == acc + [v + b] && v + b !in t.SUR && v + b !in acc
    ensures acc <= acc' && Covered(t, v, b, acc')
  {
    if Covered(t, v, b, acc) || v + b in t.SUR then acc
    else
      var m :| 0 <= m < |t.SUR| && t.SUR[m] == v;
      assert t.SUR[m] + b in acc + [v + b];
      acc + [v + b]
  }

  /** Positions i < j of a pair split by e, and a position n of SUR whose word
      continues one of them by one symbol; `x` is the matching continuation
      of the other. */
  predicate Supports(t: Table, e: Word, i: nat, j: nat, n: nat, x: Word)
  {
    && i < j < |t.SUR| && n < |t.SUR|
    && SplitBy(t, e, t.SUR[i], t.SUR[j])
    && ((Continues(t.SUR[i], t.SUR[n]) && x == t.SUR[j] + GetSuffix(t.SUR[i], t.SUR[n]))
        || (Continues(t.SUR[j], t.SUR[n]) && x == t.SUR[i] + GetSuffix(t.SUR[j], t.SUR[n])))
  }

  /** `x` is the continuation some split pair and SUR position call for. */
  ghost predicate Justified(t: Table, e: Word, x: Word)
  {
    exists i: nat, j: nat, n: nat :: Supports(t, e, i, j, n, x)
  }

  /** Every collected word is new, collected once, and justified. */
  ghost predicate Collected(t: Table, e: Word, acc: seq<Word>)
  {
    NewOnce(t.SUR, acc) && forall k :: 0 <= k < |acc| ==> Justified(t, e, acc[k])
  }

  /** The obligation for positions (i, j, n) has been met by `acc`. */
  predicate Discharged(t: Table, e: Word, i: nat, j: nat, n: nat, acc: seq<Word>)
  {
    i < j < |t.SUR| && n < |t.SUR| && SplitBy(t, e, t.SUR[i], t.SUR[j]) ==>
      && (Continues(t.SUR[i], t.SUR[n]) ==> Covered(t, t.SUR[j], GetSuffix(t.SUR[i], t.SUR[n]), acc))
      && (Continues(t.SUR[j], t.SUR[n]) ==> Covered(t, t.SUR[i], GetSuffix(t.SUR[j], t.SUR[n]), acc))
  }

  lemma DischargedGrows(t: Table, e: Word, i: nat, j: nat, n: nat, acc: seq<Word>, acc': seq<Word>)
    requires Discharged(t, e, i, j, n, acc) && acc <= acc'
    ensures Discharged(t, e, i, j, n, acc')
  {
    if i < j < |t.SUR| && n < |t.SUR| && SplitBy(t, e, t.SUR[i], t.SUR[j]) {
      if Continues(t.SUR[i], t.SUR[n]) {
        CoveredGrows(t, t.SUR[j], GetSuffix(t.SUR[i], t.SUR[n]), acc, acc');
      }
      if Continues(t.SUR[j], t.SUR[n]) {
        CoveredGrows(t, t.SUR[i], GetSuffix(t.SUR[j], t.SUR[n]), acc, acc');
      }
    }
  }

  lemma CollectedAppend(t: Table, e: Word, acc: seq<Word>, i: nat, j: nat, n: nat, x: Word)
    requires Supports(t, e, i, j, n, x) && x !in t.SUR && x !in acc
    ensures Collected(t, e, acc) ==> Collected(t, e, acc + [x])
  {
    if Collected(t, e, acc) {
      var acc' := acc + [x];
      forall k | 0 <= k < |acc'|
        ensures Justified(t, e, acc'[k])
      {
        if k == |acc| {
          assert Supports(t, e, i, j, n, acc'[k]);
        } else {
          assert acc'[k] == acc[k];
        }
      }
      forall k | 0 <= k < |acc'|
        ensures acc'[k] !in t.SUR && acc'[k] !in acc'[..k]
      {
        if k < |acc| {
          assert acc'[k] == acc[k] && acc'[..k] == acc[..k];
        } else {
          assert acc'[..k] == acc;
        }
      }
    }
  }

  /** One element `unb` = SUR[n] of the innermost loop, for the pair
      (SUR[i], SUR[j]): both directions of the continuation check. */
  function Visit(t: Table, e: Word, i: nat, j: nat, n: nat, acc: seq<Word>): (acc': seq<Word>)
    requires i < j < |t.SUR| && n < |t.SUR|
    requires SplitBy(t, e, t.SUR[i], t.SUR[j])
    ensures acc <= acc' && (Collected(t, e, acc) ==> Collected(t, e, acc'))
    ensures Discharged(t, e, i, j, n, acc')
  {
    var u1, u2, unb := t.SUR[i], t.SUR[j], t.SUR[n];
    var acc1 :=
      if Continues(u1, unb) then
        var a1 := Offer(t, u2, GetSuffix(u1, unb), acc);
        if a1 != acc then
          assert Supports(t, e, i, j, n, u2 + GetSuffix(u1, unb));
          CollectedAppend(t, e, acc, i, j, n, u2 + GetSuffix(u1, unb));
          a1
        else a1
      else acc;
    var acc2 :=
      if Continues(u2, unb) then
        var a2 := Offer(t, u1, GetSuffix(u2, unb), acc1);
        if a2 != acc1 then
          assert Supports(t, e, i, j, n, u1 + GetSuffix(u2, unb));
          CollectedAppend(t, e, acc1, i, j, n, u1 + GetSuffix(u2, unb));
          a2
        else a2
      else acc1;
    if Continues(u1, unb) then
      CoveredGrows(t, u2, GetSuffix(u1, unb), acc1, acc2);
      acc2
    else acc2
  }

  /** The innermost loop over `unb` in SUR, from position n. */
  function DistN(t: Table, e: Word, i: nat, j: nat, n: nat, acc: seq<Word>): (acc': seq<Word>)
    requires i < j < |t.SUR| && n <= |t.SUR|
    requires SplitBy(t, e, t.SUR[i], t.SUR[j])
    ensures acc <= acc' && (Collected(t, e, acc) ==> Collected(t, e, acc'))
    decreases |t.SUR| - n
  {
    if n == |t.SUR| then acc
    else DistN(t, e, i, j, n + 1, Visit(t, e, i, j, n, acc))
  }

  lemma {:induction false} DistNDischarges(t: Table, e: Word, i: nat, j: nat, n: nat, acc: seq<Word>)
    requires i < j < |t.SUR| && n <= |t.SUR|
    requires SplitBy(t, e, t.SUR[i], t.SUR[j])
    ensures forall n': nat :: n <= n' < |t.SUR| ==> Discharged(t, e, i, j, n', DistN(t, e, i, j, n, acc))
    decreases |t.SUR| - n
  {
    if n < |t.SUR| {
      var acc1 := Visit(t, e, i, j, n, acc);
      var r := DistN(t, e, i, j, n + 1, acc1);
      assert r == DistN(t, e, i, j, n, acc);
      DistNDischarges(t, e, i, j, n + 1, acc1);
      DischargedGrows(t, e, i, j, n, acc1, r);
    }
  }

  /** The loop over partners SUR[j], from position j, of SUR[i]. */
  function DistJ(t: Table, e: Word, i: nat, j: nat, acc: seq<Word>): (acc': seq<Word>)
    requires i < j <= |t.SUR|
    ensures acc <= acc' && (Collected(t, e, acc) ==> Collected(t, e, acc'))
    decreases |t.SUR| - j
  {
    if j == |t.SUR| then acc
    else
      var acc1 := if SplitBy(t, e, t.SUR[i], t.SUR[j]) then DistN(t, e, i, j, 0, acc) else acc;
      DistJ(t, e, i, j + 1, acc1)
  }

  lemma {:induction false} DistJDischarges(t: Table, e: Word, i: nat, j: nat, acc: seq<Word>)
    requires i < j <= |t.SUR|
    ensures forall j': nat, n': nat :: j <= j' < |t.SUR| && n' < |t.SUR| ==> Discharged(t, e, i, j', n', DistJ(t, e, i, j, acc))
    decreases |t.SUR| - j
  {
    if j < |t.SUR| {
      var split := SplitBy(t, e, t.SUR[i], t.SUR[j]);
      var acc1 := if split then DistN(t, e, i, j, 0, acc) else acc;
      var r := DistJ(t, e, i, j + 1, acc1);
      assert r == DistJ(t, e, i, j, acc);
      DistJDischarges(t, e, i, j + 1, acc1);
      if split {
        DistNDischarges(t, e, i, j, 0, acc);
      }
      forall j': nat, n': nat | j <= j' < |t.SUR| && n' < |t.SUR|
        ensures Discharged(t, e, i, j', n', r)
      {
        if j' > j {
          assert Discharged(t, e, i, j', n', DistJ(t, e, i, j + 1, acc1));
        } else if split {
          DischargedGrows(t, e, i, j, n', acc1, r);
        } else {
          assert !SplitBy(t, e, t.SUR[i], t.SUR[j']);
        }
      }
    }
  }

  /** The outer loop over SUR[i], from position i. */
  function DistI(t: Table, e: Word, i: nat, acc: seq<Word>): (acc': seq<Word>)
    requires i <= |t.SUR|
    ensures acc <= acc' && (Collected(t, e, acc) ==> Collected(t, e, acc'))
    decreases |t.SUR| - i
  {
    if i == |t.SUR| then acc
    else DistI(t, e, i + 1, DistJ(t, e, i, i + 1, acc))
  }

  lemma {:induction false} DistIDischarges(t: Table, e: Word, i: nat, acc: seq<Word>)
    requires i <= |t.SUR|
    ensures forall i': nat, j': nat, n': nat :: i <= i' && j' < |t.SUR| && n' < |t.SUR| ==> Discharged(t, e, i', j', n', DistI(t, e, i, acc))
    decreases |t.SUR| - i
  {
    if i < |t.SUR| {
      var acc1 := DistJ(t, e, i, i + 1, acc);
      DistJDischarges(t, e, i, i + 1, acc);
      var r := DistI(t, e, i + 1, acc1);
      assert r == DistI(t, e, i, acc);
      DistIDischarges(t, e, i + 1, acc1);
      forall i': nat, j': nat, n': nat | i <= i' && j' < |t.SUR| && n' < |t.SUR|
        ensures Discharged(t, e, i', j', n', r)
      {
        if i' == i {
          DischargedGrows(t, e, i, j', n', acc1, r);
        }
      }
    }
  }

  /** `distribute()` on a filled table: appends the collected words to R and
      SUR and reports whether there were any. */
  function Distribute(t: Table): (r: (Table, bool))
    requires |t.E| > 0
    ensures FrontierGrew(t, r.0)
    ensures r.1 <==> |r.0.SUR| > |t.SUR|
    ensures Collected(t, LastEvidence(t), r.0.SUR[|t.SUR|..])
    ensures forall i: nat, j: nat, n: nat :: i < |t.SUR| && j < |t.SUR| && n < |t.SUR| ==>
      Discharged(t, LastEvidence(t), i, j, n, r.0.SUR[|t.SUR|..])
  {
    assert Collected(t, LastEvidence(t), []);
    var added := DistI(t, LastEvidence(t), 0, []);
    DistIDischarges(t, LastEvidence(t), 0, []);
    var t' := t.(R := t.R + added, SUR := t.SUR + added);
    assert t'.SUR[|t.SUR|..] == added;
    (t', |added| > 0)
  }

  /** A discharged split pair covers the continuation of either word. */
  lemma {:induction false} DischargedCovers(t: Table, e: Word, i: nat, j: nat, n: nat, a: Sym, acc: seq<Word>)
    requires i < |t.SUR| && j < |t.SUR| && n < |t.SUR| && t.SUR[i] != t.SUR[j]
    requires SplitBy(t, e, t.SUR[i], t.SUR[j]) && t.SUR[n] == t.SUR[i] + [a]
    requires i < j ==> Discharged(t, e, i, j, n, acc)
    requires j < i ==> Discharged(t, e, j, i, n, acc)
    ensures Covered(t, t.SUR[j], [a], acc)
  {
    var u1 := t.SUR[i];
    ExtensionRoundTrip(u1, [a]);
    assert Continues(u1, t.SUR[n]) && GetSuffix(u1, t.SUR[n]) == [a];
    if j < i {
      assert SplitBy(t, e, t.SUR[j], t.SUR[i]);
    }
  }

  /** What distribute achieves: when e splits two SUR words, every
      one-symbol continuation of either one present in SUR is matched by the
      same continuation of some word with the row of the other. */
  lemma {:induction false} DistributeCovers(t: Table, u1: Word, u2: Word, a: Sym)
    requires |t.E| > 0 && u1 in t.SUR && u2 in t.SUR
    requires SplitBy(t, LastEvidence(t), u1, u2) && u1 + [a] in t.SUR
    ensures exists w :: w in t.SUR && Row(t, w) == Row(t, u2) && w + [a] in Distribute(t).0.SUR
  {
    var e, t' := LastEvidence(t), Distribute(t).0;
    var added := t'.SUR[|t.SUR|..];
    var i :| 0 <= i < |t.SUR| && t.SUR[i] == u1;
    var j :| 0 <= j < |t.SUR| && t.SUR[j] == u2;
    var n :| 0 <= n < |t.SUR| && t.SUR[n] == u1 + [a];
    assert u1 != u2;
    assert Discharged(t, e, i, j, n, added) && Discharged(t, e, j, i, n, added);
    DischargedCovers(t, e, i, j, n, a, added);
    var m :| 0 <= m < |t.SUR| && Row(t, t.SUR[m]) == Row(t, u2)
      && (t.SUR[m] + [a] in t.SUR || t.SUR[m] + [a] in added);
    assert t'.SUR == t.SUR + added;
    assert t.SUR[m] + [a] in t'.SUR;
  }

  lemma DistributeKeepsWellFormed(t: Table)
    requires |t.E| > 0 && WellFormed(t)
    ensures WellFormed(Distribute(t).0)
  {
    FrontierGrewKeepsWellFormed(t, Distribute(t).0);
  }
}

=== FILE: driver.dfy ===
/** The inner loop of `learn`: the fixpoint loop that repairs the table
    until neither make_consistent, close nor completeObservedPartition asks
    for another pass.  The loop is bounded by fuel. */
module Learner {
  import opened Base
  import opened Words
  import opened ObservationTable
  import opened Filling
  import opened Closing
  import opened Consistency
  import opened Distribution
  import opened ObservedPartition
  import opened Conjecture

  /** The table after one pass of the do-while body, with the two flags
      that decide whether another pass runs. */
  datatype Status = Status(table: Table, cons: bool, close: bool)

  /** make_consistent, and fill when it added evidence. */
  ghost function Consist(t: Table, mem: Oracle): (r: (Table, bool))
    requires Filled(t)
    ensures Filled(r.0)
    ensures r.1 <==> !Consistent(t)
    ensures !r.1 ==> r.0 == t
    ensures r.1 ==> |r.0.E| == |t.E| + 1
    ensures Agrees(t, mem) ==> Agrees(r.0, mem)
  {
    var (t1, changed) := MakeConsistent(t);
    if changed then (Fill(t1, mem), true) else (t1, false)
  }

  /** distribute, and fill when it added continuations. */
  ghost function Spread(t: Table, mem: Oracle): (r: Table)
    requires Filled(t) && |t.E| > 0
    ensures Filled(r) && r.S == t.S && r.E == t.E
    ensures Agrees(t, mem) ==> Agrees(r, mem)
  {
    var (t1, grew) := Distribute(t);
    if grew then Fill(t1, mem)
    else
      assert t1.SUR == t.SUR && t1.R == t.R;
      t1
  }

  /** The make_consistent half of a pass: when it changes the table,
      distribute the new evidence and ask for a close. */
  ghost function Evidence(t: Table, mem: Oracle, cons: bool, close: bool): (r: Status)
    requires Filled(t)
    ensures Filled(r.table)
    ensures Agrees(t, mem) ==> Agrees(r.table, mem)
    ensures !r.cons ==> r.table == t && r.close == close
    ensures r.cons <==> cons && !Consistent(t)
    ensures r.cons ==> r.close
  {
    if !cons then Status(t, false, close)
    else
      var (t1, changed) := Consist(t, mem);
      if !changed then Status(t1, false, close)
      else Status(Spread(t1, mem), true, true)
  }

  /** close, and fill when it promoted a word. */
  ghost function CloseStep(t: Table, mem: Oracle): (r: Result<(Table, bool)>)
    requires Filled(t)
    ensures r.Ok? ==> Filled(r.value.0)
    ensures (r.Ok? && !r.value.1) <==> Closed(t)
    ensures r.Ok? && !r.value.1 ==> r.value.0 == t
    ensures r.Ok? && r.value.1 ==> |r.value.0.S| == |t.S| + 1
    ensures r.Err? ==> r.fault in {EmptyStateString, PrefixNotInS}
    ensures Agrees(t, mem) && r.Ok? ==> Agrees(r.value.0, mem)
  {
    var c :- Close(t, mem);
    if c.1 then Ok((Fill(c.0, mem), true)) else Ok(c)
  }

  /** completeObservedPartition, followed by the fill that ends a pass. */
  ghost function PartitionStep(t: Table, mem: Oracle): (r: Result<(Table, bool)>)
    ensures r.Ok? ==> Filled(r.value.0)
    ensures r.Ok? && !r.value.1 ==>
      forall s :: s in r.value.0.S && s in r.value.0.partitions ==> Complete(r.value.0.partitions[s])
    ensures r.Err? ==> r.fault in {NoWitness, TargetWithoutWitness}
    ensures Agrees(t, mem) && r.Ok? ==> Agrees(r.value.0, mem)
  {
    var p :- CompleteObservedPartition(t, mem);
    var t' := Fill(p.0, mem);
    assert t'.S == p.0.S && t'.partitions == p.0.partitions;
    Ok((t', p.1))
  }

  /** One pass of the do-while body of `learn`.  The flag make_consistent
      or close sets is overwritten by completeObservedPartition's answer
      before the loop condition reads it, so a pass reports `cons` exactly
      when completeObservedPartition changed the table. */
  ghost function Round(t: Table, mem: Oracle, cons: bool, close: bool): (r: Result<Status>)
    requires Filled(t)
    ensures r.Ok? ==> Filled(r.value.table)
    ensures r.Ok? && !r.value.cons ==>
      forall s :: s in r.value.table.S && s in r.value.table.partitions ==> Complete(r.value.table.partitions[s])
    ensures r.Err? ==> r.fault in {EmptyStateString, PrefixNotInS, NoWitness, TargetWithoutWitness}
    ensures Agrees(t, mem) && r.Ok? ==> Agrees(r.value.table, mem)
  {
    var ev := Evidence(t, mem, cons, close);
    var c :- if ev.close then CloseStep(ev.table, mem) else Ok((ev.table, false));
    var p :- PartitionStep(c.0, mem);
    Ok(Status(p.0, p.1, c.1))
  }

  /** The do-while loop, entered with both flags set, run for at most
      `fuel` passes. */
  ghost function Stabilize(t: Table, mem: Oracle, cons: bool, close: bool, fuel: nat): (r: Result<Table>)
    requires Filled(t)
    ensures r.Ok? ==> Filled(r.value)
    ensures r.Ok? ==> forall s :: s in r.value.S && s in r.value.partitions ==> Complete(r.value.partitions[s])
    ensures WellFormed(t) && Agrees(t, mem) && r.Ok? ==> WellFormed(r.value) && Agrees(r.value, mem)
    decreases fuel
  {
    if fuel == 0 then Err(OutOfFuel)
    else
      var st :- Round(t, mem, cons, close);
      RoundKeepsWellFormed(t, mem, cons, close);
      if st.cons || st.close then Stabilize(st.table, mem, st.cons, st.close, fuel - 1)
      else Ok(st.table)
  }

  // ------------------------------------------------------------ invariants

  /** Each step of a pass keeps the bookkeeping invariants. */
  lemma {:induction false} ConsistKeepsWellFormed(t: Table, mem: Oracle)
    requires Filled(t) && WellFormed(t)
    ensures WellFormed(Consist(t, mem).0)
  {
    MakeConsistentKeepsWellFormed(t);
  }

  lemma {:induction false} SpreadKeepsWellFormed(t: Table, mem: Oracle)
    requires Filled(t) && |t.E| > 0 && WellFormed(t)
    ensures WellFormed(Spread(t, mem))
  {
    DistributeKeepsWellFormed(t);
  }

  lemma {:induction false} EvidenceKeepsWellFormed(t: Table, mem: Oracle, cons: bool, close: bool)
    requires Filled(t) && WellFormed(t)
    ensures WellFormed(Evidence(t, mem, cons, close).table)
  {
    if cons {
      ConsistKeepsWellFormed(t, mem);
      var (t1, changed) := Consist(t, mem);
      if changed {
        SpreadKeepsWellFormed(t1, mem);
      }
    }
  }

  lemma {:induction false} CloseStepKeepsWellFormed(t: Table, mem: Oracle)
    requires Filled(t) && WellFormed(t)
    ensures CloseStep(t, mem).Ok? ==> WellFormed(CloseStep(t, mem).value.0)
  {
    CloseKeepsWellFormed(t, mem);
  }

  lemma {:induction false} PartitionStepKeepsWellFormed(t: Table, mem: Oracle)
    requires WellFormed(t)
    ensures PartitionStep(t, mem).Ok? ==> WellFormed(PartitionStep(t, mem).value.0)
  {
    CompleteKeepsWellFormed(t, mem);
  }

  /** A pass keeps the bookkeeping invariants. */
  lemma {:induction false} RoundKeepsWellFormed(t: Table, mem: Oracle, cons: bool, close: bool)
    requires Filled(t)
    ensures WellFormed(t) && Round(t, mem, cons, close).Ok? ==> WellFormed(Round(t, mem, cons, close).value.table)
  {
    var r := Round(t, mem, cons, close);
    if WellFormed(t) && r.Ok? {
      EvidenceKeepsWellFormed(t, mem, cons, close);
      var ev := Evidence(t, mem, cons, close);
      if ev.close {
        CloseStepKeepsWellFormed(ev.table, mem);
      }
      var c := if ev.close then CloseStep(ev.table, mem) else Ok((ev.table, false));
      PartitionStepKeepsWellFormed(c.value.0, mem);
      assert r.value.table == PartitionStep(c.value.0, mem).value.0;
    }
  }

  /** What the loop leaves behind on a well-formed table that agrees with
      the oracle: every row of SUR is the oracle's answers on E, every
      access string's partition has a witness and an access string target
      for each guard, and so the conjecture built from it, when there is
      one, has a move for every state and symbol. */
  lemma {:induction false} StabilizedTable(t: Table, mem: Oracle, fuel: nat, t': Table, w: Word)
    requires WellFormed(t) && Agrees(t, mem)
    requires Stabilize(Fill(t, mem), mem, true, true, fuel) == Ok(t')
    requires w in t'.SUR
    ensures WellFormed(t') && Agrees(t', mem)
    ensures Row(t', w) == Some(seq(|t'.E|, k requires 0 <= k < |t'.E| => mem(w + t'.E[k])))
    ensures forall s :: s in t'.S ==> Complete(t'.partitions[s])
    ensures forall s, k :: s in t'.S && 0 <= k < |t'.partitions[s]| ==>
      t'.partitions[s][k].target.Some? && t'.partitions[s][k].target.value in t'.S
    ensures BuildSFA(t').Ok? ==> forall i: nat, a :: i < |t'.S| ==> Leaves(BuildSFA(t').value, i, a)
  {
    var t0 := Fill(t, mem);
    assert t0.(f := t.f) == t;
    assert WellFormed(t0);
    OracleRows(t', mem, w);
    CompleteTableTotal(t');
  }

  /** On a well-formed table whose partitions are complete, every guard
      leads to an access string, so the conjecture is total. */
  lemma {:induction false} CompleteTableTotal(t: Table)
    requires WellFormed(t)
    requires forall s :: s in t.S ==> Complete(t.partitions[s])
    ensures forall s, k :: s in t.S && 0 <= k < |t.partitions[s]| ==>
      t.partitions[s][k].target.Some? && t.partitions[s][k].target.value in t.S
    ensures BuildSFA(t).Ok? ==> forall i: nat, a :: i < |t.S| ==> Leaves(BuildSFA(t).value, i, a)
  {
    forall s, k | s in t.S && 0 <= k < |t.partitions[s]|
      ensures t.partitions[s][k].target.Some? && t.partitions[s][k].target.value in t.S
    {
      assert Complete(t.partitions[s]) && Targeted(t.S, t.partitions[s]);
    }
    if BuildSFA(t).Ok? {
      forall i: nat, a | i < |t.S|
        ensures Leaves(BuildSFA(t).value, i, a)
      {
        assert t.S[i] in t.S;
        MovesTotal(t, i, a);
      }
    }
  }
}

=== FILE: fill.dfy ===
/** `fill`: ask the oracle for every w·e (w in SUR, e in E) not yet memoised. */
module Filling {
  import opened Base
  import opened Words
  import opened ObservationTable

  /** The inner loop of fill for one word `w`. */
  function FillWord(f: map<Word, bool>, w: Word, E: seq<Word>, mem: Oracle): (f': map<Word, bool>)
    ensures forall e :: e in E ==> w + e in f'
    ensures forall x :: x in f ==> x in f' && f'[x] == f[x]
    ensures forall x :: x in f' && x !in f ==> f'[x] == mem(x) && exists e :: e in E && x == w + e
    decreases |E|
  {
    if |E| == 0 then f
    else
      var x := w + E[0];
      var f1 := if x in f then f else f[x := mem(x)];
      var f' := FillWord(f1, w, E[1..], mem);
      assert forall e :: e in E ==> e == E[0] || e in E[1..];
      f'
  }

  /** The outer loop of fill, over the words of SUR. */
  function FillAll(f: map<Word, bool>, SUR: seq<Word>, E: seq<Word>, mem: Oracle): (f': map<Word, bool>)
    ensures forall w, e :: w in SUR && e in E ==> w + e in f'
    ensures forall x :: x in f ==> x in f' && f'[x] == f[x]
    ensures forall x :: x in f' && x !in f ==> f'[x] == mem(x) && exists w, e :: w in SUR && e in E && x == w + e
    decreases |SUR|
  {
    if |SUR| == 0 then f
    else
      var f1 := FillWord(f, SUR[0], E, mem);
      var f' := FillAll(f1, SUR[1..], E, mem);
      assert forall w :: w in SUR ==> w == SUR[0] || w in SUR[1..];
      f'
  }

  /** `fill(o)`: afterwards the table is filled; nothing but f changes, and f
      only gains entries, each the oracle's answer for some w·e. */
  function Fill(t: Table, mem: Oracle): (t': Table)
    ensures Filled(t')
    ensures t'.(f := t.f) == t
    ensures forall x :: x in t.f ==> x in t'.f && t'.f[x] == t.f[x]
    ensures forall x :: x in t'.f && x !in t.f ==> t'.f[x] == mem(x) && exists w, e :: w in t.SUR && e in t.E && x == w + e
    ensures Agrees(t, mem) ==> Agrees(t', mem)
  {
    t.(f := FillAll(t.f, t.SUR, t.E, mem))
  }

  /** fill keeps the bookkeeping invariants: they do not mention f. */
  lemma FillKeepsWellFormed(t: Table, mem: Oracle)
    requires WellFormed(t)
    ensures WellFormed(Fill(t, mem))
  {
    var t' := Fill(t, mem);
    assert t'.S == t.S && t'.R == t.R && t'.E == t.E && t'.SUR == t.SUR && t'.partitions == t.partitions;
  }

  /** Filling a filled table changes nothing, so fill is idempotent. */
  lemma FillFilledIsIdentity(t: Table, mem: Oracle)
    requires Filled(t)
    ensures Fill(t, mem) == t
  {
    var t' := Fill(t, mem);
    assert t'.f.Keys == t.f.Keys;
    assert t'.f == t.f;
  }

  lemma FillIdempotent(t: Table, mem: Oracle)
    ensures Fill(Fill(t, mem), mem) == Fill(t, mem)
  {
    FillFilledIsIdentity(Fill(t, mem), mem);
  }

  /** On a filled table that agrees with the oracle, row(w) of a word of SUR
      is the oracle's answers for w·E[k], k in order. */
  lemma {:induction false} OracleRows(t: Table, mem: Oracle, w: Word)
    requires Filled(t) && Agrees(t, mem) && w in t.SUR
    ensures Row(t, w) == Some(seq(|t.E|, k requires 0 <= k < |t.E| => mem(w + t.E[k])))
  {
    RowMeaning(t, w);
    var row := Row(t, w).value;
    var expected := seq(|t.E|, k requires 0 <= k < |t.E| => mem(w + t.E[k]));
    forall k | 0 <= k < |t.E|
      ensures row[k] == expected[k]
    {
      assert row[k] == t.f[w + t.E[k]];
    }
    assert row == expected;
  }

  /** After fill, on a table that agrees with the oracle, every row of SUR is
      defined and entry k of row(w) is the oracle's answer for w·E[k]. */
  lemma {:induction false} FilledRowsAreOracleRows(t: Table, mem: Oracle, w: Word)
    requires Agrees(t, mem) && w in t.SUR
    ensures Row(Fill(t, mem), w) == Some(seq(|t.E|, k requires 0 <= k < |t.E| => mem(w + t.E[k])))
  {
    var t' := Fill(t, mem);
    assert t'.SUR == t.SUR && t'.E == t.E;
    OracleRows(t', mem, w);
  }
}

=== FILE: partition.dfy ===
/** `completeObservedPartition`: resolve every triple of every observed
    partition that has no witness yet, by picking a witness symbol of its
    guard and locating the state its continuation reaches.  A continuation
    that is not yet in the table, or that reaches an unknown row, stops the
    pass with a table change instead. */
module ObservedPartition {
  import opened Base
  import opened Words
  import opened Predicates
  import opened ObservationTable

  /** A resolved triple of the partition of `s`: its witness satisfies its
      guard, and its target is an access string with the row of `s·wit`. */
  ghost predicate Sound(t: Table, s: Word, x: Triple)
  {
    && x.wit.Some? && x.target.Some?
    && x.wit.value in x.guard
    && x.target.value in t.S
    && Row(t, s + [x.wit.value]).Some?
    && Row(t, x.target.value) == Row(t, s + [x.wit.value])
  }

  /** `y` is `x`, or `x` was unresolved and `y` resolves it soundly under the
      same guard. */
  ghost predicate Advanced(t: Table, s: Word, x: Triple, y: Triple)
  {
    y == x || (x.wit.None? && y.guard == x.guard && Sound(t, s, y))
  }

  ghost predicate Progress(t: Table, s: Word, ps: seq<Triple>, ps': seq<Triple>)
  {
    |ps'| == |ps| && forall k :: 0 <= k < |ps| ==> Advanced(t, s, ps[k], ps'[k])
  }

  ghost predicate PartsProgress(t: Table, P: map<Word, seq<Triple>>, P': map<Word, seq<Triple>>)
  {
    && (forall s :: s in P' <==> s in P)
    && forall s :: s in P ==> Progress(t, s, P[s], P'[s])
  }

  /** Every triple has a witness. */
  predicate Complete(ps: seq<Triple>)
  {
    forall k :: 0 <= k < |ps| ==> ps[k].wit.Some?
  }

  /** An unresolved triple whose guard no symbol satisfies. */
  ghost predicate Blank(x: Triple)
  {
    x.wit.None? && !IsSatisfiable(x.guard)
  }

  /** An unresolved triple that nonetheless has a target. */
  predicate Dangling(x: Triple)
  {
    x.wit.None? && x.target.Some?
  }

  ghost predicate HasBlank(ps: seq<Triple>)
  {
    exists k :: 0 <= k < |ps| && Blank(ps[k])
  }

  ghost predicate HasDangling(ps: seq<Triple>)
  {
    exists k :: 0 <= k < |ps| && Dangling(ps[k])
  }

  /** `a` is the witness of some unresolved triple of `ps`. */
  ghost predicate Pending(ps: seq<Triple>, a: Sym)
  {
    exists k :: 0 <= k < |ps| && ps[k].wit.None? && GenerateWitness(ps[k].guard) == Some(a)
  }

  /** The continuation `ext` had no full row yet and joins R and SUR. */
  ghost predicate FrontierStep(t: Table, t': Table, ext: Word)
  {
    && Row(t, ext).None?
    && t'.S == t.S && t'.R == t.R + [ext] && t'.SUR == t.SUR + [ext]
    && t'.E == t.E && t'.f == t.f && t'.arb == t.arb
  }

  /** The continuation `ext = s·a` reached a row no access string has: it
      becomes an access string and `[a]` new evidence. */
  ghost predicate StateStep(t: Table, t': Table, ext: Word, a: Sym, mem: Oracle)
  {
    && Row(t, ext).Some? && !RowInS(t, ext)
    && t'.S == t.S + [ext] && t'.R == t.R && t'.SUR == t.SUR + [ext]
    && t'.E == t.E + [[a]] && t'.f == t.f[ext := mem(ext)] && t'.arb == t.arb
    && t'.partitions == FreshPartitions(t'.S)
  }

  lemma AdvancedTrans(t: Table, s: Word, x: Triple, y: Triple, z: Triple)
    requires Advanced(t, s, x, y) && Advanced(t, s, y, z)
    ensures Advanced(t, s, x, z)
  {
  }

  lemma ProgressTrans(t: Table, s: Word, a: seq<Triple>, b: seq<Triple>, c: seq<Triple>)
    requires Progress(t, s, a, b) && Progress(t, s, b, c)
    ensures Progress(t, s, a, c)
  {
    forall k | 0 <= k < |a|
      ensures Advanced(t, s, a[k], c[k])
    {
      AdvancedTrans(t, s, a[k], b[k], c[k]);
    }
  }

  lemma PartsProgressTrans(t: Table, A: map<Word, seq<Triple>>, B: map<Word, seq<Triple>>, C: map<Word, seq<Triple>>)
    requires PartsProgress(t, A, B) && PartsProgress(t, B, C)
    ensures PartsProgress(t, A, C)
  {
    forall s | s in A
      ensures Progress(t, s, A[s], C[s])
    {
      ProgressTrans(t, s, A[s], B[s], C[s]);
    }
  }

  /** Updating one key along `Progress` is progress of the whole map. */
  lemma PartsProgressUpdate(t: Table, P: map<Word, seq<Triple>>, s: Word, ps: seq<Triple>)
    requires s in P && Progress(t, s, P[s], ps)
    ensures PartsProgress(t, P, P[s := ps])
  {
    forall s' | s' in P
      ensures Progress(t, s', P[s'], P[s := ps][s'])
    {
      if s' != s {
        assert forall k :: 0 <= k < |P[s']| ==> Advanced(t, s', P[s'][k], P[s'][k]);
      }
    }
  }

  lemma ProgressRefl(t: Table, s: Word, ps: seq<Triple>)
    ensures Progress(t, s, ps, ps)
  {
    assert forall k :: 0 <= k < |ps| ==> Advanced(t, s, ps[k], ps[k]);
  }

  lemma PartsProgressRefl(t: Table, P: map<Word, seq<Triple>>)
    ensures PartsProgress(t, P, P)
  {
    forall s | s in P
      ensures Progress(t, s, P[s], P[s])
    {
      ProgressRefl(t, s, P[s]);
    }
  }

  /** Nothing moves in a complete partition. */
  lemma ProgressFromComplete(t: Table, s: Word, ps: seq<Triple>, ps': seq<Triple>)
    requires Complete(ps) && Progress(t, s, ps, ps')
    ensures ps' == ps
  {
    assert forall k :: 0 <= k < |ps| ==> ps'[k] == ps[k];
  }

  /** A triple still unresolved after progress is the one it started as. */
  lemma ProgressKeepsUnresolved(t: Table, s: Word, ps: seq<Triple>, ps': seq<Triple>, k: nat)
    requires Progress(t, s, ps, ps') && k < |ps'| && ps'[k].wit.None?
    ensures ps'[k] == ps[k]
  {
    assert Advanced(t, s, ps[k], ps'[k]);
  }

  lemma CompleteByIndex(t: Table, P: map<Word, seq<Triple>>)
    requires forall k :: 0 <= k < |t.S| && t.S[k] in P ==> Complete(P[t.S[k]])
    ensures forall s :: s in t.S && s in P ==> Complete(P[s])
  {
    forall s | s in t.S && s in P
      ensures Complete(P[s])
    {
      var k :| 0 <= k < |t.S| && t.S[k] == s;
    }
  }

  datatype Scan = Continue(ps: seq<Triple>) | Stop(next: Table, sym: Sym)

  /** The loop over the triples of the partition of `s`, from position j.
      `ps` is the partition as updated so far; `parts` the partition map as
      it stood when this key was reached. */
  ghost function ScanTriples(t: Table, s: Word, ps: seq<Triple>, j: nat, parts: map<Word, seq<Triple>>, mem: Oracle): (r: Result<Scan>)
    requires s in t.S && s in parts && j <= |ps|
    requires Progress(t, s, parts[s], ps)
    ensures r.Ok? && r.value.Continue? ==>
      && Progress(t, s, parts[s], r.value.ps)
      && (forall k :: 0 <= k < j ==> r.value.ps[k] == ps[k])
      && (forall k :: j <= k < |ps| ==> r.value.ps[k].wit.Some?)
    ensures r.Ok? && r.value.Stop? ==>
      && Pending(ps, r.value.sym)
      && ((FrontierStep(t, r.value.next, s + [r.value.sym]) && PartsProgress(t, parts, r.value.next.partitions))
          || StateStep(t, r.value.next, s + [r.value.sym], r.value.sym, mem))
    ensures r.Err? ==> r.fault == NoWitness || r.fault == TargetWithoutWitness
    ensures r.Err? && r.fault == NoWitness ==> HasBlank(ps)
    ensures r.Err? && r.fault == TargetWithoutWitness ==> HasDangling(ps)
    ensures (forall k :: j <= k < |ps| ==> !Blank(ps[k]) && !Dangling(ps[k])) ==> r.Ok?
    decreases |ps| - j
  {
    if j == |ps| then Ok(Continue(ps))
    else if ps[j].wit.Some? then ScanTriples(t, s, ps, j + 1, parts, mem)
    else match GenerateWitness(ps[j].guard)
      case None => Err(NoWitness)
      case Some(a) =>
        var ext := s + [a];
        match Row(t, ext)
        case None =>
          PartsProgressUpdate(t, parts, s, ps);
          Ok(Stop(t.(R := t.R + [ext], SUR := t.SUR + [ext], partitions := parts[s := ps]), a))
        case Some(row) =>
          match StateFor(t, row)
          case None =>
            assert ext[..|ext| - 1] == s;
            var t1 :- AddState(t, ext, mem);
            Ok(Stop(t1.(E := t1.E + [[a]]), a))
          case Some(q) =>
            if ps[j].target.Some? then Err(TargetWithoutWitness)
            else
              var y := Triple(ps[j].guard, Some(q), Some(a));
              assert Sound(t, s, y);
              var ps1 := ps[j := y];
              AdvancedTrans(t, s, parts[s][j], ps[j], y);
              assert Progress(t, s, parts[s], ps1);
              ScanTriples(t, s, ps1, j + 1, parts, mem)
  }

  /** What the pass over the keys S[idx..] promises, for partition map
      `parts` and result `r`. */
  ghost predicate Outcome(t: Table, idx: nat, parts: map<Word, seq<Triple>>, mem: Oracle, r: Result<(Table, bool)>)
  {
    && (r.Ok? && !r.value.1 ==>
          var t' := r.value.0;
          && t'.S == t.S && t'.R == t.R && t'.E == t.E && t'.SUR == t.SUR && t'.f == t.f && t'.arb == t.arb
          && PartsProgress(t, parts, t'.partitions)
          && (forall k :: idx <= k < |t.S| && t.S[k] in t'.partitions ==> Complete(t'.partitions[t.S[k]])))
    && (r.Ok? && r.value.1 ==>
          var t' := r.value.0;
          exists s, a :: s in t.S && s in parts && Pending(parts[s], a)
            && ((FrontierStep(t, t', s + [a]) && PartsProgress(t, parts, t'.partitions))
                || StateStep(t, t', s + [a], a, mem)))
    && (r.Err? ==> r.fault == NoWitness || r.fault == TargetWithoutWitness)
    && (r.Err? && r.fault == NoWitness ==> exists s :: s in t.S && s in parts && HasBlank(parts[s]))
    && (r.Err? && r.fault == TargetWithoutWitness ==> exists s :: s in t.S && s in parts && HasDangling(parts[s]))
    && ((forall s, k :: s in t.S && s in parts && 0 <= k < |parts[s]| ==> !Blank(parts[s][k]) && !Dangling(parts[s][k])) ==> r.Ok?)
  }

  /** After key S[idx] has been completed to `ps'`, the promise for the rest
      of the keys gives the promise from S[idx] on. */
  lemma ContinueOutcome(t: Table, idx: nat, parts: map<Word, seq<Triple>>, ps': seq<Triple>, mem: Oracle, r: Result<(Table, bool)>)
    requires idx < |t.S| && t.S[idx] in parts
    requires Progress(t, t.S[idx], parts[t.S[idx]], ps') && Complete(ps')
    requires Outcome(t, idx + 1, parts[t.S[idx] := ps'], mem, r)
    ensures Outcome(t, idx, parts, mem, r)
  {
    var s := t.S[idx];
    var parts' := parts[s := ps'];
    PartsProgressUpdate(t, parts, s, ps');
    assert !HasBlank(ps') && !HasDangling(ps');
    assert forall a :: !Pending(ps', a);
    if r.Ok? {
      var t' := r.value.0;
      if PartsProgress(t, parts', t'.partitions) {
        PartsProgressTrans(t, parts, parts', t'.partitions);
        if !r.value.1 {
          ProgressFromComplete(t, s, ps', t'.partitions[s]);
        }
      }
      if r.value.1 {
        var s1, a :| s1 in t.S && s1 in parts' && Pending(parts'[s1], a)
          && ((FrontierStep(t, t', s1 + [a]) && PartsProgress(t, parts', t'.partitions))
              || StateStep(t, t', s1 + [a], a, mem));
        assert s1 != s && parts'[s1] == parts[s1];
      }
    } else if r.fault == NoWitness {
      var s1 :| s1 in t.S && s1 in parts' && HasBlank(parts'[s1]);
      assert s1 != s && parts'[s1] == parts[s1];
    } else {
      var s1 :| s1 in t.S && s1 in parts' && HasDangling(parts'[s1]);
      assert s1 != s && parts'[s1] == parts[s1];
    }
    if forall s, k :: s in t.S && s in parts && 0 <= k < |parts[s]| ==> !Blank(parts[s][k]) && !Dangling(parts[s][k]) {
      UpdateKeepsClean(t.S, parts, s, ps', parts');
    }
  }

  /** Replacing one partition by one with no blank or dangling triple keeps
      every partition free of them. */
  lemma UpdateKeepsClean(S: seq<Word>, parts: map<Word, seq<Triple>>, s: Word, ps': seq<Triple>, parts': map<Word, seq<Triple>>)
    requires parts' == parts[s := ps'] && !HasBlank(ps') && !HasDangling(ps')
    requires forall s0, k :: s0 in S && s0 in parts && 0 <= k < |parts[s0]| ==> !Blank(parts[s0][k]) && !Dangling(parts[s0][k])
    ensures forall s1, k :: s1 in S && s1 in parts' && 0 <= k < |parts'[s1]| ==> !Blank(parts'[s1][k]) && !Dangling(parts'[s1][k])
  {
    forall s1, k | s1 in S && s1 in parts' && 0 <= k < |parts'[s1]|
      ensures !Blank(parts'[s1][k]) && !Dangling(parts'[s1][k])
    {
      if s1 != s {
        assert parts'[s1] == parts[s1];
      }
    }
  }

  /** The loop over the keys of the partition map, taken in the order of S
      from position idx; `parts` is the map as updated so far. */
  ghost function ScanKeys(t: Table, idx: nat, parts: map<Word, seq<Triple>>, mem: Oracle): (r: Result<(Table, bool)>)
    requires idx <= |t.S|
    ensures Outcome(t, idx, parts, mem, r)
    decreases |t.S| - idx
  {
    if idx == |t.S| then
      PartsProgressRefl(t, parts);
      Ok((t.(partitions := parts), false))
    else
      var s := t.S[idx];
      if s !in parts then ScanKeys(t, idx + 1, parts, mem)
      else
        ProgressRefl(t, s, parts[s]);
        var sc :- ScanTriples(t, s, parts[s], 0, parts, mem);
        match sc
        case Stop(t', a) => Ok((t', true))
        case Continue(ps') =>
          var r := ScanKeys(t, idx + 1, parts[s := ps'], mem);
          ContinueOutcome(t, idx, parts, ps', mem, r);
          r
  }

  /** `completeObservedPartition()`.  Returning false means S, R, E, SUR and f
      are untouched, every triple of every access string is resolved, and
      each triple resolved now got a witness from its guard and the access
      string whose row its continuation has.  Returning true means exactly
      one table change: a witnessed continuation joined R, or became a new
      access string with its last symbol as new evidence. */
  ghost function CompleteObservedPartition(t: Table, mem: Oracle): (r: Result<(Table, bool)>)
    ensures r.Ok? && !r.value.1 ==>
      var t' := r.value.0;
      && t'.S == t.S && t'.R == t.R && t'.E == t.E && t'.SUR == t.SUR && t'.f == t.f && t'.arb == t.arb
      && PartsProgress(t, t.partitions, t'.partitions)
      && (forall s :: s in t.S && s in t'.partitions ==> Complete(t'.partitions[s]))
    ensures r.Ok? && r.value.1 ==>
      var t' := r.value.0;
      exists s, a :: s in t.S && s in t.partitions && Pending(t.partitions[s], a)
        && ((FrontierStep(t, t', s + [a]) && PartsProgress(t, t.partitions, t'.partitions))
            || StateStep(t, t', s + [a], a, mem))
    ensures r.Err? ==> r.fault == NoWitness || r.fault == TargetWithoutWitness
    ensures r.Err? && r.fault == NoWitness ==> exists s :: s in t.S && s in t.partitions && HasBlank(t.partitions[s])
    ensures r.Err? && r.fault == TargetWithoutWitness ==> exists s :: s in t.S && s in t.partitions && HasDangling(t.partitions[s])
    ensures (forall s, k :: s in t.S && s in t.partitions && 0 <= k < |t.partitions[s]| ==> !Blank(t.partitions[s][k]) && !Dangling(t.partitions[s][k])) ==> r.Ok?
  {
    var r := ScanKeys(t, 0, t.partitions, mem);
    if r.Ok? && !r.value.1 then
      CompleteByIndex(t, r.value.0.partitions);
      r
    else r
  }

  lemma ProgressKeepsTotal(t: Table, s: Word, ps: seq<Triple>, ps': seq<Triple>)
    requires Progress(t, s, ps, ps') && Total(ps)
    ensures Total(ps')
  {
    assert forall k :: 0 <= k < |ps| ==> ps'[k].guard == ps[k].guard by {
      forall k | 0 <= k < |ps|
        ensures ps'[k].guard == ps[k].guard
      {
        assert Advanced(t, s, ps[k], ps'[k]);
      }
    }
    assert Cover(ps') == Cover(ps);
  }

  lemma PartsProgressKeepsTotal(t: Table, P: map<Word, seq<Triple>>, P': map<Word, seq<Triple>>)
    requires PartsProgress(t, P, P') && forall s :: s in P ==> Total(P[s])
    ensures forall s :: s in P' ==> Total(P'[s])
  {
    forall s | s in P'
      ensures Total(P'[s])
    {
      ProgressKeepsTotal(t, s, P[s], P'[s]);
    }
  }

  /** Resolving a triple gives it a target in S, so resolved triples keep
      targeting access strings. */
  lemma ProgressKeepsTargeted(t: Table, s: Word, ps: seq<Triple>, ps': seq<Triple>)
    requires Progress(t, s, ps, ps') && Targeted(t.S, ps)
    ensures Targeted(t.S, ps')
  {
    forall k | 0 <= k < |ps'| && ps'[k].wit.Some?
      ensures ps'[k].target.Some? && ps'[k].target.value in t.S
    {
      assert Advanced(t, s, ps[k], ps'[k]);
    }
  }

  lemma PartsProgressKeepsTargeted(t: Table, P: map<Word, seq<Triple>>, P': map<Word, seq<Triple>>)
    requires PartsProgress(t, P, P') && forall s :: s in P ==> Targeted(t.S, P[s])
    ensures forall s :: s in P' ==> Targeted(t.S, P'[s])
  {
    forall s | s in P'
      ensures Targeted(t.S, P'[s])
    {
      ProgressKeepsTargeted(t, s, P[s], P'[s]);
    }
  }

  /** completeObservedPartition keeps the bookkeeping invariants. */
  lemma CompleteKeepsWellFormed(t: Table, mem: Oracle)
    requires WellFormed(t)
    ensures var r := CompleteObservedPartition(t, mem);
      r.Ok? ==> WellFormed(r.value.0)
  {
    var r := CompleteObservedPartition(t, mem);
    if r.Ok? {
      var t' := r.value.0;
      if !r.value.1 {
        PartsProgressKeepsTotal(t, t.partitions, t'.partitions);
        PartsProgressKeepsTargeted(t, t.partitions, t'.partitions);
      } else {
        var s, a :| s in t.S && s in t.partitions && Pending(t.partitions[s], a)
          && ((FrontierStep(t, t', s + [a]) && PartsProgress(t, t.partitions, t'.partitions))
              || StateStep(t, t', s + [a], a, mem));
        if FrontierStep(t, t', s + [a]) && PartsProgress(t, t.partitions, t'.partitions) {
          PartsProgressKeepsTotal(t, t.partitions, t'.partitions);
          PartsProgressKeepsTargeted(t, t.partitions, t'.partitions);
        }
      }
    }
  }
}

=== FILE: predicates.dfy ===
/** The boolean algebra of predicates over symbols, given by its meaning:
    a predicate denotes the set of symbols that satisfy it. */
module Predicates {
  import opened Base
  import opened Words

  type Pred = iset<Sym>

  ghost function Not(p: Pred): (q: Pred)
    ensures forall a :: a in q <==> a !in p
  {
    iset a | a !in p
  }

  ghost function True(): (p: Pred)
    ensures forall a :: a in p
  {
    Not(iset{})
  }

  ghost function And(p: Pred, q: Pred): Pred { p * q }

  ghost function Or(p: Pred, q: Pred): Pred { p + q }

  ghost predicate IsSatisfiable(p: Pred) { exists a :: a in p }

  ghost predicate AreEquivalent(p: Pred, q: Pred) { p == q }

  /** Some symbol satisfying `p`; `None` stands for the null a solver returns
      on an unsatisfiable predicate.  The choice is a fixed function of `p`,
      as the learner relies on regenerating the same witness. */
  ghost function GenerateWitness(p: Pred): (r: Option<Sym>)
    ensures r.Some? <==> IsSatisfiable(p)
    ensures r.Some? ==> r.value in p
  {
    if IsSatisfiable(p) then var a :| a in p; Some(a) else None
  }
}

=== FILE: table.dfy ===
/** The observation table of the symbolic learner (`ObsTable`): access strings
    S, frontier R, evidence E, the working list SUR, the memoised membership
    map f and one observed partition per access string. */
module ObservationTable {
  import opened Base
  import opened Words
  import opened Predicates

  /** An entry of an observed partition: a guard, the access string reached
      on it (None while unresolved) and the symbol that witnessed it. */
  datatype Triple = Triple(guard: Pred, target: Option<Word>, wit: Option<Sym>)

  /** SUR is a list, not a set: a promoted word can be appended to it again. */
  datatype Table = Table(
    S: seq<Word>,
    R: seq<Word>,
    E: seq<Word>,
    SUR: seq<Word>,
    f: map<Word, bool>,
    arb: Sym,
    partitions: map<Word, seq<Triple>>)

  /** The membership oracle, a fixed total function on words. */
  type Oracle = Word -> bool

  // ---------------------------------------------------------------- rows

  /** The evidence list with every entry equal to `ignore` dropped. */
  function Kept(E: seq<Word>, ignore: Option<Word>): (K: seq<Word>)
    ensures forall e :: e in K <==> e in E && ignore != Some(e)
    ensures ignore == None ==> K == E
  {
    if |E| == 0 then []
    else (if ignore == Some(E[0]) then [] else [E[0]]) + Kept(E[1..], ignore)
  }

  /** `row(w, ignore)`: the memoised answers for `w` followed by each kept
      evidence word, or None as soon as one of them has not been asked.
      Its meaning is stated by RowOfMeaning. */
  function RowOf(E: seq<Word>, f: map<Word, bool>, w: Word, ignore: Option<Word>): Option<seq<bool>>
  {
    if |E| == 0 then Some([])
    else
      var rest := RowOf(E[1..], f, w, ignore);
      if ignore == Some(E[0]) then rest
      else if w + E[0] !in f || rest.None? then None
      else Some([f[w + E[0]]] + rest.value)
  }

  lemma {:induction false} RowOfMeaning(E: seq<Word>, f: map<Word, bool>, w: Word, ignore: Option<Word>)
    ensures var r, K := RowOf(E, f, w, ignore), Kept(E, ignore);
      && (r.Some? <==> forall e :: e in K ==> w + e in f)
      && (r.Some? ==> |r.value| == |K| && forall k :: 0 <= k < |K| ==> r.value[k] == f[w + K[k]])
  {
    if |E| > 0 {
      RowOfMeaning(E[1..], f, w, ignore);
      var K, K' := Kept(E, ignore), Kept(E[1..], ignore);
      assert K == (if ignore == Some(E[0]) then [] else [E[0]]) + K';
    }
  }

  /** `row(w)`. */
  function Row(t: Table, w: Word): Option<seq<bool>>
  {
    RowOf(t.E, t.f, w, None)
  }

  /** Row(w) is defined exactly when every w·e has been asked, and position k
      then holds f(w·E[k]). */
  lemma RowMeaning(t: Table, w: Word)
    ensures Row(t, w).Some? <==> forall e :: e in t.E ==> w + e in t.f
    ensures Row(t, w).Some? ==> |Row(t, w).value| == |t.E|
    ensures Row(t, w).Some? ==> forall k :: 0 <= k < |t.E| ==> Row(t, w).value[k] == t.f[w + t.E[k]]
  {
    RowOfMeaning(t.E, t.f, w, None);
  }

  /** Two defined rows are equal exactly when they agree on every evidence word. */
  lemma RowsEqual(t: Table, u: Word, v: Word)
    requires Row(t, u).Some? && Row(t, v).Some?
    ensures forall k :: 0 <= k < |t.E| ==> u + t.E[k] in t.f && v + t.E[k] in t.f
    ensures Row(t, u) == Row(t, v) <==> forall k :: 0 <= k < |t.E| ==> t.f[u + t.E[k]] == t.f[v + t.E[k]]
  {
    RowMeaning(t, u);
    RowMeaning(t, v);
    if forall k :: 0 <= k < |t.E| ==> t.f[u + t.E[k]] == t.f[v + t.E[k]] {
      assert Row(t, u).value == Row(t, v).value;
    }
  }

  /** Every w·e with w in SUR and e in E has been asked. */
  predicate Filled(t: Table)
  {
    forall w, e :: w in t.SUR && e in t.E ==> w + e in t.f
  }

  /** f never contradicts the oracle. */
  predicate Agrees(t: Table, mem: Oracle)
  {
    forall x :: x in t.f ==> t.f[x] == mem(x)
  }

  predicate RowInS(t: Table, w: Word)
  {
    exists s :: s in t.S && Row(t, s) == Row(t, w)
  }

  /** Closedness: every frontier word looks like some access string. */
  predicate Closed(t: Table)
  {
    forall r :: r in t.R ==> RowInS(t, r)
  }

  // ------------------------------------------------------ state lookups

  /** The first index of S, from `k` on, whose row is `row`. */
  function FirstWithRow(t: Table, row: seq<bool>, k: nat): (r: Option<nat>)
    requires k <= |t.S|
    ensures r.Some? ==> k <= r.value < |t.S| && Row(t, t.S[r.value]) == Some(row)
    ensures r.Some? ==> forall j :: k <= j < r.value ==> Row(t, t.S[j]) != Some(row)
    ensures r.None? ==> forall j :: k <= j < |t.S| ==> Row(t, t.S[j]) != Some(row)
    decreases |t.S| - k
  {
    if k == |t.S| then None
    else if Row(t, t.S[k]) == Some(row) then Some(k)
    else FirstWithRow(t, row, k + 1)
  }

  /** `getAccessString`: the first access string whose row is that of `w`.
      None when the row of `w` is not computable or matches no access string. */
  function GetAccessString(t: Table, w: Word): (r: Option<Word>)
    ensures r.Some? ==> Row(t, w).Some? && r.value in t.S && Row(t, r.value) == Row(t, w)
    ensures r.Some? ==> exists i :: 0 <= i < |t.S| && t.S[i] == r.value && forall j :: 0 <= j < i ==> Row(t, t.S[j]) != Row(t, w)
    ensures r.None? <==> Row(t, w).None? || !RowInS(t, w)
  {
    match Row(t, w)
    case None => None
    case Some(row) =>
      match FirstWithRow(t, row, 0)
      case None => None
      case Some(i) => Some(t.S[i])
  }

  /** The lookup map `states` of completeObservedPartition and buildSFA: built
      by inserting the access strings in order, so the LAST one with a given
      row wins.  Scans S[..n] from the end. */
  function LastWithRow(t: Table, row: seq<bool>, n: nat): (r: Option<nat>)
    requires n <= |t.S|
    ensures r.Some? ==> r.value < n && Row(t, t.S[r.value]) == Some(row)
    ensures r.Some? ==> forall j :: r.value < j < n ==> Row(t, t.S[j]) != Some(row)
    ensures r.None? ==> forall j :: 0 <= j < n ==> Row(t, t.S[j]) != Some(row)
    decreases n
  {
    if n == 0 then None
    else if Row(t, t.S[n - 1]) == Some(row) then Some(n - 1)
    else LastWithRow(t, row, n - 1)
  }

  function StateFor(t: Table, row: seq<bool>): (r: Option<Word>)
    ensures r.Some? ==> r.value in t.S && Row(t, r.value) == Some(row)
    ensures r.None? ==> forall s :: s in t.S ==> Row(t, s) != Some(row)
  {
    match LastWithRow(t, row, |t.S|)
    case None => None
    case Some(i) => Some(t.S[i])
  }

  // ------------------------------------------------ partition invariants

  /** The union of the guards of a partition. */
  ghost function Cover(ps: seq<Triple>): (c: Pred)
    ensures forall a :: a in c <==> exists k :: 0 <= k < |ps| && a in ps[k].guard
  {
    if |ps| == 0 then iset{}
    else
      assert forall k :: 1 <= k < |ps| ==> ps[k] == ps[1..][k - 1];
      ps[0].guard + Cover(ps[1..])
  }

  /** Guards of distinct entries never share a symbol. */
  ghost predicate Disjoint(ps: seq<Triple>)
  {
    forall i, j :: 0 <= i < j < |ps| ==> ps[i].guard * ps[j].guard == iset{}
  }

  /** A partition of the whole alphabet. */
  ghost predicate Total(ps: seq<Triple>)
  {
    Cover(ps) == True() && Disjoint(ps)
  }

  /** The partition every access string gets when a state is added. */
  ghost function FreshPartitions(S: seq<Word>): (m: map<Word, seq<Triple>>)
    ensures forall s :: s in m <==> s in S
    ensures forall s :: s in m ==> m[s] == [Triple(True(), None, None)] && Total(m[s]) && Targeted(S, m[s])
  {
    map s | s in S :: [Triple(True(), None, None)]
  }

  /** Every triple that has a witness also has a target, and the target is
      an access string: the target is set before the witness, and every
      partition is reset whenever S grows. */
  ghost predicate Targeted(S: seq<Word>, ps: seq<Triple>)
  {
    forall k :: 0 <= k < |ps| && ps[k].wit.Some? ==> ps[k].target.Some? && ps[k].target.value in S
  }

  /** SUR holds exactly the words of S and R. */
  ghost predicate SurIsSR(t: Table)
  {
    forall w :: w in t.SUR <==> w in t.S || w in t.R
  }

  /** The bookkeeping invariants every operation keeps: the empty word is the
      first access string, the empty suffix the first evidence, SUR holds
      exactly the words of S and R, partitions are keyed by S, each of them
      splits the alphabet into disjoint guards, and every resolved triple
      targets an access string. */
  ghost predicate WellFormed(t: Table)
  {
    && |t.S| > 0 && t.S[0] == []
    && |t.E| > 0 && t.E[0] == []
    && SurIsSR(t)
    && (forall s :: s in t.partitions <==> s in t.S)
    && (forall s :: s in t.partitions ==> Total(t.partitions[s]))
    && (forall s :: s in t.partitions ==> Targeted(t.S, t.partitions[s]))
  }

  /** The constructor of `ObsTable`: S = [ε], R = [arb], E = [ε], and the
      single partition of ε is one unresolved triple guarded by True. */
  ghost function Init(arb: Sym): (t: Table)
    ensures WellFormed(t) && t.f == map[] && t.arb == arb
    ensures t.S == [[]] && t.R == [[arb]] && t.E == [[]] && t.SUR == [[], [arb]]
  {
    Table([[]], [[arb]], [[]], [[], [arb]], map[], arb, FreshPartitions([[]]))
  }

  // ------------------------------------------------------ table updates

  /** Each word of `added` is new: neither in `before` nor earlier in `added`. */
  predicate NewOnce(before: seq<Word>, added: seq<Word>)
  {
    forall i :: 0 <= i < |added| ==> added[i] !in before && added[i] !in added[..i]
  }

  lemma NewOnceCons(before: seq<Word>, x: Word, added: seq<Word>)
    requires x !in before && NewOnce(before + [x], added)
    ensures NewOnce(before, [x] + added)
  {
    var a := [x] + added;
    forall i | 0 <= i < |a|
      ensures a[i] !in before && a[i] !in a[..i]
    {
      if i > 0 {
        assert a[i] == added[i - 1];
        assert a[..i] == [x] + added[..i - 1];
      }
    }
  }

  /** `t'` differs from `t` only by words appended to both R and SUR, each of
      them new to SUR. */
  ghost predicate FrontierGrew(t: Table, t': Table)
  {
    && |t.SUR| <= |t'.SUR|
    && t'.SUR == t.SUR + t'.SUR[|t.SUR|..]
    && t'.R == t.R + t'.SUR[|t.SUR|..]
    && t'.S == t.S && t'.E == t.E && t'.f == t.f && t'.arb == t.arb && t'.partitions == t.partitions
    && NewOnce(t.SUR, t'.SUR[|t.SUR|..])
  }

  lemma FrontierGrewCons(t: Table, x: Word, t': Table)
    requires x !in t.SUR
    requires FrontierGrew(t.(R := t.R + [x], SUR := t.SUR + [x]), t')
    ensures FrontierGrew(t, t')
  {
    var t1 := t.(R := t.R + [x], SUR := t.SUR + [x]);
    var added := t'.SUR[|t1.SUR|..];
    assert t'.SUR == t.SUR + [x] + added;
    assert t'.SUR[|t.SUR|..] == [x] + added;
    assert t'.R == t.R + [x] + added;
    NewOnceCons(t.SUR, x, added);
  }

  lemma FrontierGrewKeepsSurIsSR(t: Table, t': Table)
    requires FrontierGrew(t, t')
    ensures SurIsSR(t) ==> SurIsSR(t')
  {
    var added := t'.SUR[|t.SUR|..];
    forall w
      ensures w in t'.SUR <==> w in t.SUR || w in added
      ensures w in t'.R <==> w in t.R || w in added
    {
    }
  }

  lemma FrontierGrewKeepsWellFormed(t: Table, t': Table)
    requires WellFormed(t) && FrontierGrew(t, t')
    ensures WellFormed(t')
  {
    var added := t'.SUR[|t.SUR|..];
    forall w
      ensures w in t'.SUR <==> w in t'.S || w in t'.R
    {
      assert w in t'.SUR <==> w in t.SUR || w in added;
      assert w in t'.R <==> w in t.R || w in added;
    }
  }

  /** Appends to R and SUR, in order, each word of `ws` not yet in SUR (the
      evidence-closure loops of close and make_consistent). */
  ghost function ExtendFrontier(t: Table, ws: seq<Word>): (t': Table)
    ensures FrontierGrew(t, t')
    ensures forall w :: w in ws ==> w in t'.SUR
    ensures forall w :: w in t'.SUR ==> w in t.SUR || w in ws
    ensures forall w :: w in t'.SUR[|t.SUR|..] ==> w in ws
    decreases |ws|
  {
    if |ws| == 0 then t
    else if ws[0] in t.SUR then
      var t' := ExtendFrontier(t, ws[1..]);
      assert forall w :: w in ws ==> w == ws[0] || w in ws[1..];
      t'
    else
      var t1 := t.(R := t.R + [ws[0]], SUR := t.SUR + [ws[0]]);
      var t' := ExtendFrontier(t1, ws[1..]);
      FrontierGrewCons(t, ws[0], t');
      assert forall w :: w in ws ==> w == ws[0] || w in ws[1..];
      t'
  }

  /** `addState`: appends `w` to S and SUR, asks the oracle for `w`, checks
      that the one-shorter prefix of `w` is an access string, and resets every
      partition to a single unresolved True triple. */
  ghost function AddState(t: Table, w: Word, mem: Oracle): (r: Result<Table>)
    ensures r.Ok? <==> |w| > 0 && w[..|w| - 1] in t.S
    ensures r.Ok? ==> var t' := r.value;
      && t'.S == t.S + [w] && t'.SUR == t.SUR + [w] && t'.R == t.R && t'.E == t.E
      && t'.f == t.f[w := mem(w)] && t'.arb == t.arb
      && t'.partitions == FreshPartitions(t'.S)
  {
    if |w| == 0 then Err(EmptyStateString)
    else if w[..|w| - 1] !in t.S then Err(PrefixNotInS)
    else
      var S' := t.S + [w];
      Ok(t.(S := S', SUR := t.SUR + [w], f := t.f[w := mem(w)], partitions := FreshPartitions(S')))
  }

  /** addState keeps the bookkeeping invariants. */
  lemma AddStateKeepsWellFormed(t: Table, w: Word, mem: Oracle)
    requires WellFormed(t)
    ensures AddState(t, w, mem).Ok? ==> WellFormed(AddState(t, w, mem).value)
  {
  }
}

=== FILE: words.dfy ===
/** Words over an opaque alphabet and the two word helpers of the learner:
    the strict-prefix test `isPrefix` and `getSuffix`. */
module Words {

  /** A symbol of the (possibly infinite) alphabet; only equality is used. */
  type Sym(==, !new)

  type Word = seq<Sym>

  /** The comparison loop of `isPrefix`, from position `i` on. */
  function AgreeFrom(w: Word, we: Word, i: nat): (b: bool)
    requires |w| <= |we| && i <= |w|
    ensures b <==> forall k :: i <= k < |w| ==> w[k] == we[k]
    decreases |w| - i
  {
    if i == |w| then true
    else if w[i] != we[i] then false
    else AgreeFrom(w, we, i + 1)
  }

  /** `w` is a STRICT prefix of `we`. */
  function IsPrefix(w: Word, we: Word): (b: bool)
    ensures b <==> |w| < |we| && w == we[..|w|]
  {
    if |w| >= |we| then false
    else AgreeFrom(w, we, 0)
  }

  /** The symbols of `we` from position `k` on, gathered one by one. */
  function TailFrom(we: Word, k: nat): (s: Word)
    ensures k <= |we| ==> s == we[k..]
    ensures k >= |we| ==> s == []
    decreases |we| - k
  {
    if k >= |we| then [] else [we[k]] + TailFrom(we, k + 1)
  }

  /** What follows `w` in `we`; empty when `w` is not shorter than `we`. */
  function GetSuffix(w: Word, we: Word): (s: Word)
    ensures IsPrefix(w, we) ==> w + s == we && |s| > 0
    ensures |w| <= |we| ==> |s| == |we| - |w|
    ensures |w| >= |we| ==> s == []
  {
    TailFrom(we, |w|)
  }

  /** Every strict extension is recognised as one, and `GetSuffix` gives back
      exactly the symbols that were appended. */
  lemma ExtensionRoundTrip(w: Word, x: Word)
    ensures IsPrefix(w, w + x) <==> |x| > 0
    ensures GetSuffix(w, w + x) == x
  {
    assert (w + x)[..|w|] == w;
    assert (w + x)[|w|..] == x;
  }

  /** Two words that share a strict prefix and the suffix after it are equal. */
  lemma SameSuffixSameWord(w: Word, a: Word, b: Word)
    requires IsPrefix(w, a) && IsPrefix(w, b)
    requires GetSuffix(w, a) == GetSuffix(w, b)
    ensures a == b
  {
  }

  /** `List.indexOf`: the first position of `x`, or -1. */
  function IndexOf(ws: seq<Word>, x: Word): (r: int)
    ensures r == -1 <==> x !in ws
    ensures r != -1 ==> 0 <= r < |ws| && ws[r] == x && x !in ws[..r]
    decreases |ws|
  {
    if |ws| == 0 then -1
    else if ws[0] == x then 0
    else
      var r := IndexOf(ws[1..], x);
      assert ws == [ws[0]] + ws[1..];
      if r == -1 then -1
      else
        assert ws[..r + 1] == [ws[0]] + ws[1..][..r];
        r + 1
  }
}
